=== FILE: README.md ===
# Quick-SQLite connection core, modelled in Dafny

Quick-SQLite wraps Python's `sqlite3` in a single `Connection` class. This
project models that class as it is written in `quicksqlite/connect.py`. It
covers:

- the listener registry and best-effort dispatch;
- the bounded reconnect loop and the integrity check run before every table
  operation;
- construction, `connect`, `close`, `commit` and `rollback`;
- the six table operations (`create_table`, `drop_table`, `insert`, `delete`,
  `update`, `select`), including how each one builds its SQL text and bound
  parameters.

The engine is an oracle. Every call to `sqlite3.connect` takes the next
entry of a sequence of open outcomes, and every `execute` takes the next
entry of a sequence of execute outcomes. An exhausted sequence reads as a
failure.

Every operation is a pure function. It returns:

- the new connection record;
- the rest of the oracle;
- the trace of what it did, in order: open attempts, waits, dispatched
  events, executed statements, commits, rollbacks and closes;
- its outcome: a value, or the kind of exception it let escape.

Modules, one per component:

- `Values`: shared values, error kinds, and Python's `str()` of an integer.
- `Registry`: the listener map, `listen` and `_dispatch_listener`.
- `Statements`: the SQL text and bound parameters of each table operation.
  This includes the in-place rewrite of the column list in `create_table`.
- `Lifecycle`: the connection record, the reconnect loop with a closed-form
  reference, the integrity check, construction, `connect`, `close`, `commit`
  and `rollback`.
- `Crud`: the six table operations put together from the pieces above.

## Quirks of the code

- **`_con` has three states.** It can be never assigned, None, or open. With
  `auto_connect=False` it is never assigned, and then the integrity check
  and `close` raise AttributeError instead of reconnecting.
- **`listen` accepts any name.** It stores the function under its name minus
  three characters, and it cannot raise ListenError.
- **Every execute error is raised as OptionError.** Nothing retries a locked
  database, no type token is validated, and no error is returned as a value.
- **OptionError is an abstract error kind.** It is imported from
  `quicksqlite/errors.py` but not defined there.
- **`create_table` pairs every column with `types[0]`.** The loop never
  increments `i`. The column order is kept when no column name equals an
  earlier name followed by a space and that type token; a collision can
  still leave the order intact (`["a", "a X"]` with type `X`,
  `Statements.ColumnCollisionCanKeepOrder`). Distinct names are not enough
  to keep it: `["b", "a", "a X"]` with type `X` comes out as
  `a X, b X, a X X` (`Statements.ColumnOrderCanChange`).
- **`connect()` sets the handle to None after any failed first open.** This
  happens even when a reconnect attempt succeeded and dispatched `reconnect`
  (`Lifecycle.ConnectDropsReconnectedHandle`).
- **`select` with just one filter argument runs no query.** It still commits
  and dispatches `transaction_success`, and then raises UnboundLocalError.
- **`delete` with a column but no value also raises OptionError.** It never
  reaches the execute, because its WHERE text is unassigned.
- **The integrity check's result is ignored.** With `reconnects <= 0` and a
  None handle, a data operation still runs its statement on an old cursor.
  Under `auto_commit` it then fails at the commit with AttributeError
  (`Crud.StaleCursorFailsAtCommit`).

## Model

| member | source | states |
|---|---|---|
| `Values.Decimal` | quicksqlite/connect.py:218 | `str()` of an integer: a leading `-` exactly for negatives, then decimal digits without leading zeros that read back as the absolute value |
| `Values.Render` | quicksqlite/connect.py:157 | the f-string `str()` of a value: a string as itself, an integer as its decimal numeral with `-` exactly for negatives, a boolean as `True` or `False` |
| `Registry.InitialListeners` | quicksqlite/connect.py:11-21 | the registry starts with exactly the seven event slots, all empty |
| `Registry.EventKey` | quicksqlite/connect.py:68 | a function is registered under its name minus the first three characters, or under the empty name when the name is shorter |
| `Registry.Listen` | quicksqlite/connect.py:66-72 | `listen` stores the function in its slot, adds that slot if it is new, leaves every other slot unchanged and never raises ListenError |
| `Registry.Dispatch` | quicksqlite/connect.py:74-85 | dispatch raises KeyError exactly for an event without a slot; it returns the callback's result when the callback returns, and False for an empty slot or a callback that raises TypeError or NameError |
| `Registry.ListenKeepsEventSlots` | quicksqlite/connect.py:66-72 | registration never removes one of the seven event slots |
| `Registry.InitialDispatchIsFalse` | quicksqlite/connect.py:74-85 | on a fresh registry every event dispatches to nothing and yields False |
| `Registry.DispatchKnownEventNeverRaises` | quicksqlite/connect.py:74-85 | dispatching one of the seven events never raises, whatever the callbacks return, and when they raise TypeError or NameError |
| `Registry.ListenThenDispatch` | quicksqlite/connect.py:66-85 | after `listen(f)`, dispatching f's event calls f |
| `Registry.LastRegistrationWins` | quicksqlite/connect.py:68 | of two registrations under one slot the later wins; a registration under another slot leaves a dispatch unchanged |
| `Statements.Join` | quicksqlite/connect.py:157 | `sep.join` of no parts is empty, of one part is that part, and always starts with the first part |
| `Statements.JoinSnoc` | quicksqlite/connect.py:157 | joining one more part appends the separator and that part, so parts appear in order with one separator between neighbours |
| `Statements.RemoveFirst` | quicksqlite/connect.py:136 | `list.remove` drops the first occurrence: one element shorter, same multiset less that element |
| `Statements.Next` | quicksqlite/connect.py:135-137 | one iteration keeps the list's length, puts the rewriting of the value read at the front, and trades that value for its rewriting in the multiset |
| `Statements.RewriteFrom` | quicksqlite/connect.py:135-137 | the loop never changes the list's length, so the iterator visits each position exactly once |
| `Statements.RewriteFromPermutes` | quicksqlite/connect.py:134-137 | the remove-and-insert-at-0 loop trades each element read for its definition, so the result is a permutation of the definitions |
| `Statements.RewriteFromInOrder` | quicksqlite/connect.py:134-137 | when no definition equals a later element, the loop builds the definitions in reverse input order |
| `Statements.OrderCanChange` | quicksqlite/connect.py:134-137 | on `[b, a, def(a)]` with `def(b) != a` and `def(a) != def(b)`, the third iteration removes the rewritten `def(a)` at the front, and the result comes out as `def(a), def(b), def(def(a))`, not in input order |
| `Statements.CollisionCanKeepOrder` | quicksqlite/connect.py:134-137 | `[a, def(a)]` collides, yet the loop still yields the rewritings in input order, so the no-collision condition is sufficient but not necessary |
| `Statements.ColumnRewrite` | quicksqlite/connect.py:134-137 | the rewritten column list keeps its length and is always a permutation of the names each paired with the one type token |
| `Statements.ColumnRewriteInOrder` | quicksqlite/connect.py:134-140 | without collisions, reversing the rewritten list gives the names paired with the type token in input order |
| `Statements.ColumnCollisionCanKeepOrder` | quicksqlite/connect.py:134-140 | the colliding names `a`, `a X` with type `X` still come out in input order, as `a X`, `a X X` |
| `Statements.ColumnOrderCanChange` | quicksqlite/connect.py:134-140 | the distinct names `b`, `a`, `a X` with type `X` come out of the statement as `a X`, `b X`, `a X X` |
| `Statements.CreateTableText` | quicksqlite/connect.py:140 | the CREATE text starts with `CREATE TABLE IF NOT EXISTS <name> (`, ends with `)`, and holds a single column definition as is |
| `Statements.CreateTablePlan` | quicksqlite/connect.py:131-140 | `create_table` raises OptionError exactly when there are more or fewer types than names; otherwise its statement binds nothing |
| `Statements.CreateTablePairsFirstType` | quicksqlite/connect.py:131-140 | with matching lengths the CREATE TABLE IF NOT EXISTS statement lists a permutation of the names each paired with `types[0]`, in input order when no name collides |
| `Statements.DropTableStatement` | quicksqlite/connect.py:149 | the statement is `DROP TABLE ` followed by the table name as it is, with nothing bound |
| `Statements.Quoted` | quicksqlite/connect.py:157 | one quoted text per inserted value, in order, each its `str()` between single quotes |
| `Statements.InsertStatement` | quicksqlite/connect.py:157-160 | `insert` binds nothing and executes `INSERT INTO <table> VALUES (...)` with the quoted values joined by `, ` |
| `Statements.InsertFewValues` | quicksqlite/connect.py:157-160 | no values give `VALUES ()`, and one value `v` gives `VALUES ('v')` with its `str()` |
| `Statements.InsertOneMoreValue` | quicksqlite/connect.py:157-160 | one more value adds `, 'v'` before the closing parenthesis, so the values appear in order, each quoted once |
| `Statements.DeletePlan` | quicksqlite/connect.py:169-186 | `delete` fails with OptionError exactly when just one filter argument is given; with neither it deletes every row; with both it binds the value to `column=?` |
| `Statements.UpdateStatement` | quicksqlite/connect.py:193-201 | the new value is always the first bound parameter; the filter value is bound second, and ` WHERE <column_w>=?` follows `UPDATE <table> SET <column>=?`, exactly when both filter arguments are given |
| `Statements.UpdateOneFilterIsUnfiltered` | quicksqlite/connect.py:196-201 | `update` with only one filter argument builds the unfiltered UPDATE |
| `Statements.Columns` | quicksqlite/connect.py:214-215 | a single column name becomes a one-element tuple; a tuple or list is used as it is |
| `Statements.RandomClause` | quicksqlite/connect.py:222-225 | the clause is ` ORDER BY RANDOM()` when `random` is truthy and empty otherwise |
| `Statements.LimitClause` | quicksqlite/connect.py:217-220 | the clause is empty exactly when no limit is given, and otherwise ` LIMIT ` followed by the limit's `str()` |
| `Statements.SelectHead` | quicksqlite/connect.py:228-240 | the text before the clauses is `SELECT <columns joined by ", "> FROM <table>`, followed by ` WHERE <column_w>=? ` when filtered |
| `Statements.SelectPlan` | quicksqlite/connect.py:211-240 | `select` builds no statement exactly when just one filter argument is given; with both, it binds the filter value and puts ` WHERE <column_w>=? ` after the table name; with neither, the clauses follow the table name directly |
| `Statements.SelectClauses` | quicksqlite/connect.py:217-240 | " ORDER BY RANDOM()" is appended exactly when `random` and " LIMIT n" exactly when a limit is given, to a text that depends on neither |
| `Statements.SelectEndsWithClauses` | quicksqlite/connect.py:217-240 | the text ends with " LIMIT n" when a limit is given, and otherwise with " ORDER BY RANDOM()" when random ordering is asked for |
| `Statements.ScalarSelectIsOneTuple` | quicksqlite/connect.py:214-215 | selecting one column name is the same as selecting a one-element tuple of it |
| `Lifecycle.ReconnectFrom` | quicksqlite/connect.py:42-64 | from any loop index, the loop leaves the settings and registry alone, at most installs a live handle with a cursor, never executes, opens first when an attempt is left, and raises only ConnectError under `error_on_fail` |
| `Lifecycle.AttemptReconnect` | quicksqlite/connect.py:42-64 | `_attempt_reconnect` does nothing when `reconnects <= 0`, otherwise opens first; it at most installs a live handle with a cursor, and raises only ConnectError under `error_on_fail` |
| `Lifecycle.FirstSuccess` | quicksqlite/connect.py:43-50 | the attempt the loop stops at is the first coming open that succeeds; none is found exactly when all of them fail |
| `Lifecycle.FailedAttemptsCounts` | quicksqlite/connect.py:52-64 | each failed, non-final attempt is one open and one wait, and dispatches nothing |
| `Lifecycle.ReconnectFromMatchesClosedForm` | quicksqlite/connect.py:42-64 | the reconnect loop from any index on equals its closed form: failed attempts with waits up to the first success, or all attempts failed ending in `disconnect` |
| `Lifecycle.ReconnectMatchesClosedForm` | quicksqlite/connect.py:42-64 | `_attempt_reconnect` equals the closed form |
| `Lifecycle.ReconnectNoAttempts` | quicksqlite/connect.py:43 | with `reconnects <= 0` the loop does nothing and raises nothing |
| `Lifecycle.ReconnectCounts` | quicksqlite/connect.py:42-64 | the loop makes k + 1 attempts and dispatches only `reconnect`, once, when the k-th open is the first success; it makes `reconnects` attempts and dispatches only `disconnect`, once, when all fail |
| `Lifecycle.ReconnectStopsAtFirstSuccess` | quicksqlite/connect.py:44-50 | the loop stops at the first success with a live handle, and its last action is `reconnect(path, k + 1)` with the 1-based attempt number |
| `Lifecycle.ReconnectExhausted` | quicksqlite/connect.py:52-62 | when every attempt fails, the handle is untouched, `disconnect` is dispatched once, and ConnectError is raised exactly when `error_on_fail` |
| `Lifecycle.ReconnectBounds` | quicksqlite/connect.py:42-64 | at most `reconnects` attempts; `disconnect` exactly when all failed; an error exactly when all failed under `error_on_fail`, and then it is ConnectError |
| `Lifecycle.OpenOrReconnect` | quicksqlite/connect.py:96-108 | a successful first open makes a cursor and dispatches `connect(path)`; after a failed one it runs the reconnect loop without `error_on_fail` on the remaining opens, keeps the loop's record, trace and oracle, then sets the handle to None; `connect` is never dispatched then |
| `Lifecycle.New` | quicksqlite/connect.py:5-40 | the constructor keeps its four settings and starts a fresh registry; `commit` is shadowed exactly under `auto_commit` and `connect` exactly under `auto_connect`; without `auto_connect` the handle is never assigned; with it, a failed first open runs the reconnect loop without `error_on_fail` and leaves the handle None |
| `Lifecycle.Connect` | quicksqlite/connect.py:96-108 | `connect()` raises TypeError once the constructor has shadowed it; otherwise it opens once, and on success leaves a live handle with a cursor and dispatches `connect(path)`; on failure it runs the reconnect loop without `error_on_fail` on the remaining opens, then leaves the handle None, and never dispatches `connect` |
| `Lifecycle.ConnectToUnreachableDatabase` | quicksqlite/connect.py:96-108 | `connect()` on a database that never opens makes `reconnects + 1` opens, dispatches `disconnect` once and `connect` never, and returns normally with the handle None |
| `Lifecycle.Integrity` | quicksqlite/connect.py:87-94 | True with nothing done when a handle exists; AttributeError when it was never assigned; otherwise the result is the reconnect loop's with `error_on_fail`: its record, remaining opens and trace, then False, or ConnectError exactly when every attempt failed, in which case the handle stays None |
| `Lifecycle.Close` | quicksqlite/connect.py:110-114 | `close()` dispatches `disconnect` first; it then closes and clears an open handle, and raises AttributeError otherwise |
| `Lifecycle.Rollback` | quicksqlite/connect.py:116-120 | `rollback()` dispatches `rollback` and then `transaction_success(path, "rollback")` before rolling back; it raises AttributeError without an open handle |
| `Lifecycle.Commit` | quicksqlite/connect.py:122-126 | `commit()` raises TypeError under `auto_commit`; otherwise it dispatches `commit` and then `transaction_success(path, "commit")`, and commits an open handle |
| `Lifecycle.ConnectDropsReconnectedHandle` | quicksqlite/connect.py:104-108 | a failed first open followed by a successful reconnect still leaves the handle None |
| `Lifecycle.IntegrityLeavesLiveHandle` | quicksqlite/connect.py:87-94 | with `reconnects > 0`, the check makes no attempt when a handle exists, and a normal return always leaves a live handle |
| `Lifecycle.IntegrityWithoutReconnects` | quicksqlite/connect.py:87-94 | with `reconnects <= 0`, a None handle stays None and the check returns False |
| `Lifecycle.ReconnectKeepsValid` | quicksqlite/connect.py:42-64 | the loop keeps the connection well formed and dispatches only known events |
| `Lifecycle.ReconnectOnlyConnects` | quicksqlite/connect.py:42-64 | the loop only opens, waits and dispatches |
| `Lifecycle.IntegrityOnlyConnects` | quicksqlite/connect.py:87-94 | the integrity check executes, commits and closes nothing |
| `Lifecycle.OpenOrReconnectKeepsValid` | quicksqlite/connect.py:96-108 | opening keeps the connection well formed: every event slot remains, and an open handle has a cursor |
| `Lifecycle.NewIsValid` | quicksqlite/connect.py:5-40 | construction yields a well-formed connection that dispatched only known events |
| `Lifecycle.LifecycleKeepsValid` | quicksqlite/connect.py:96-126 | `connect`, the integrity check, `close`, `commit` and `rollback` keep the connection well formed and dispatch only known events |
| `Crud.RunStatement` | quicksqlite/connect.py:139-143 | an execute without a cursor, or one the engine rejects, is raised as OptionError; otherwise the statement runs once |
| `Crud.Finish` | quicksqlite/connect.py:164-167 | under `auto_commit` a data operation commits and then dispatches, and raises AttributeError without a handle; otherwise it only dispatches |
| `Crud.Notice` | quicksqlite/connect.py:164-167 | the tail of a data operation commits exactly under `auto_commit`, first, and ends with `transaction_success(path, op)` |
| `Crud.Mutation` | quicksqlite/connect.py:128-209 | a table operation succeeds exactly when its statement executes and, for a data operation under `auto_commit`, a handle exists; after the integrity check it executes, commits exactly under `auto_commit`, then dispatches; on failure it commits and dispatches nothing, and the error names the step that failed |
| `Crud.Proceed` | quicksqlite/connect.py:131-209 | whatever the integrity check returned, the rest of an operation runs the argument check, the execute, the commit under `auto_commit` and the dispatch, in that order, stopping at the first error |
| `Crud.RejectedPlanExecutesNothing` | quicksqlite/connect.py:131-132 | arguments rejected before the execute mean nothing is executed, committed or dispatched |
| `Crud.CreateTableLengthMismatch` | quicksqlite/connect.py:128-132 | mismatched lengths raise OptionError before any statement runs |
| `Crud.CreateTable` | quicksqlite/connect.py:128-143 | a successful `create_table` executes one CREATE TABLE whose columns are a permutation of the names paired with `types[0]`, and neither commits nor dispatches |
| `Crud.DropTable` | quicksqlite/connect.py:145-152 | `drop_table` executes only DROP TABLE, and neither commits nor dispatches |
| `Crud.Insert` | quicksqlite/connect.py:154-167 | a successful `insert` executes its INSERT with nothing bound, commits exactly under `auto_commit`, then dispatches `transaction_success(path, "insert")` |
| `Crud.DeleteNeedsBothOrNeither` | quicksqlite/connect.py:169-186 | `delete` with just one filter argument raises OptionError and executes nothing |
| `Crud.Delete` | quicksqlite/connect.py:169-191 | a successful `delete` binds the value when filtered and deletes every row when not, then commits under `auto_commit` and dispatches |
| `Crud.UpdateOneFilterUpdatesEveryRow` | quicksqlite/connect.py:196-201 | `update` with one filter argument behaves exactly like `update` with none |
| `Crud.Update` | quicksqlite/connect.py:193-209 | a successful `update` executes with the new value bound first, commits under `auto_commit`, then dispatches |
| `Crud.StaleCursorFailsAtCommit` | quicksqlite/connect.py:154-167 | a data operation past a False integrity check can execute on an old cursor and then raise AttributeError at the commit, with no dispatch |
| `Crud.SelectOneFilter` | quicksqlite/connect.py:227-250 | `select` with one filter argument executes nothing; with a usable handle it commits and dispatches, then raises UnboundLocalError |
| `Crud.Select` | quicksqlite/connect.py:211-250 | a successful `select` executes once, commits under `auto_commit`, dispatches, and returns the first row or all rows as `fetchall` asks; with both filter arguments or neither, a failure ends the trace at the execute, or before it without a cursor, and raises the integrity check's error, OptionError for the execute, or AttributeError for a commit without a handle; the connection is the one the integrity check left |
| `Crud.SelectAfter` | quicksqlite/connect.py:214-250 | whatever the integrity check returned, `select` without a statement commits and dispatches and then raises UnboundLocalError, or AttributeError at the commit; with a statement it executes, commits, dispatches and returns the rows, stopping at the first error with that error's trace and kind |
| `Crud.MutationFiresKnownEvents` | quicksqlite/connect.py:128-209 | every dispatch of the five operations other than `select` names one of the seven events |
| `Crud.SelectFiresKnownEvents` | quicksqlite/connect.py:211-250 | every dispatch of `select` names one of the seven events |
| `Crud.TableOperationsKeepValid` | quicksqlite/connect.py:128-250 | every table operation keeps the connection well formed and dispatches only the seven events, so its `transaction_success` dispatch cannot raise KeyError |

## Left out

- The sqlite3 engine is an oracle of open and execute outcomes. SQL
  semantics, row contents and the values `fetchone`/`fetchall` return are
  not modelled, and a closed or stale cursor is not tied to failing
  executes.
- The engine's `cursor()`, `commit()`, `rollback()` and `close()` are
  assumed never to fail.
- `time.sleep(1 + (reconnects - 1))` is recorded as a `Wait` action with
  that many seconds; no time passes.
- What callbacks do is not modelled. Dispatch results are ignored by every
  caller, so operations record only which event was dispatched and with
  which arguments.
- Registry.Dispatch: a callback that raises anything other than TypeError
  or NameError lets that exception escape from `_dispatch_listener`; the
  model has no outcome for it, since the exception comes from user code
  outside the connection.
- Registry.DispatchKnownEventNeverRaises: holds only for callbacks that
  return or raise TypeError or NameError, for the reason given for
  `Registry.Dispatch`.
- Python values flowing into listeners and statements are limited to
  strings, integers and booleans; `select`'s `limit` is an integer.
- `create_table` mutates the caller's `values` list in place. The model
  exposes the rewritten list as `Statements.ColumnRewrite` but does not model
  the caller seeing it.
- `quicksqlite/errors.py` is not part of this model. Its classes only print
  and log, and OptionError is missing from it. `quicksqlite/__init__.py`
  holds no logic.
- Registry.Listen: a callback is assumed to have a `__name__`. A callable
  without one makes `listen` raise AttributeError, which the model's
  `Callback`, always named, cannot express.
- `listen` is modelled on the registry alone. `Registry.Listen` is the whole
  change that `listen` makes to a connection.
- Statements.ColumnRewriteInOrder: requires that no name collide. That is
  stronger than distinct names, which do not keep the order
  (`Statements.ColumnOrderCanChange`), and it is sufficient rather than
  necessary (`Statements.ColumnCollisionCanKeepOrder`).

=== FILE: crud.dfy ===
/**
 The table operations of a connection: `create_table`, `drop_table`,
 `insert`, `delete`, `update` and `select`. Each one runs the integrity
 check, validates its arguments, executes one statement on the cursor and,
 for the four data operations, commits under `auto_commit` and dispatches
 `transaction_success(path, <operation>)`.
 */
module Crud {
  import opened Values
  import opened Registry
  import opened Statements
  import opened Lifecycle

  /** What `select` returns: `fetchone()` or `fetchall()` of the executed
      statement. The rows themselves belong to the engine. */
  datatype Rows = FirstRow(stmt: Statement) | AllRows(stmt: Statement)

  /** `self._handler.execute(stmt)` inside the operation's try block. Without
      a cursor the attribute lookup fails, and that AttributeError comes out
      as OptionError like every error of the execute; otherwise the engine
      takes the next execute outcome. */
  function RunStatement(c: Conn, o: Oracle, stmt: Statement): (r: Step<()>)
    ensures r.conn == c && r.oracle.opens == o.opens
    ensures !c.cursor ==> r == Step(c, o, [], Raised(OptionError))
    ensures c.cursor ==> r.trace == [Execute(stmt)] && r.oracle.execs == Drop(o.execs, 1)
    ensures r.out.Ok? <==> c.cursor && Succeeds(o.execs, 0)
    ensures r.out.Raised? ==> r.out.error == OptionError
  {
    if !c.cursor then Step(c, o, [], Raised(OptionError))
    else
      var o' := o.(execs := Drop(o.execs, 1));
      Step(c, o', [Execute(stmt)], if Succeeds(o.execs, 0) then Ok(()) else Raised(OptionError))
  }

  /** The tail of a data operation: `self._con.commit()` under `auto_commit`
      (an AttributeError when the handle is None), then
      `transaction_success(path, op)`. */
  function Finish(c: Conn, o: Oracle, op: string): (r: Step<()>)
    ensures r.conn == c && r.oracle == o
    ensures r.out.Ok? <==> !c.autoCommit || c.handle == Live
    ensures r.out.Ok? ==> r.trace == Notice(c, op)
    ensures r.out.Raised? ==> r.trace == [] && r.out.error == AttributeError
  {
    var notify := [Fire(TransactionSuccessEvent, [Text(c.path), Text(op)])];
    if !c.autoCommit then Step(c, o, notify, Ok(()))
    else if c.handle == Live then Step(c, o, [CommitHandle] + notify, Ok(()))
    else Step(c, o, [], Raised(AttributeError))
  }

  /** What a successful data operation does after its execute: a commit
      exactly under `auto_commit`, then the `transaction_success` dispatch. */
  function Notice(c: Conn, op: string): (t: seq<Action>)
    ensures |t| >= 1 && t[|t| - 1] == Fire(TransactionSuccessEvent, [Text(c.path), Text(op)])
    ensures CommitHandle in t <==> c.autoCommit
    ensures c.autoCommit ==> t[0] == CommitHandle
  {
    (if c.autoCommit then [CommitHandle] else []) + [Fire(TransactionSuccessEvent, [Text(c.path), Text(op)])]
  }

  /** Whether the engine will accept the operation's statement: the integrity
      check let it through, the arguments were accepted, a cursor exists and
      the next execute succeeds. */
  predicate Executes(c: Conn, o: Oracle, plan: Outcome<Statement>) {
    Accepted(Integrity(c, o), plan)
  }

  predicate Accepted(g: Step<bool>, plan: Outcome<Statement>) {
    g.out.Ok? && plan.Ok? && g.conn.cursor && Succeeds(g.oracle.execs, 0)
  }

  /** The shape shared by every operation but `select`: integrity check, the
      argument check (`plan`), the execute, and, when `op` names a data
      operation, the commit and dispatch.

      Over all inputs: the operation succeeds exactly when its statement
      executes and, for a data operation under `auto_commit`, a handle is
      there to commit; after the integrity check it executes that one
      statement, then commits exactly under `auto_commit`, and dispatches
      `transaction_success` last. On failure nothing is committed or
      dispatched past the integrity check, at most the execute ran, and the
      error is the one of the step that failed. The connection is never
      changed past the integrity check. */
  function Mutation(c: Conn, o: Oracle, plan: Outcome<Statement>, op: Option<string>): (r: Step<()>)
    ensures var g := Integrity(c, o);
      && r.conn == g.conn
      && |g.trace| <= |r.trace| && r.trace[..|g.trace|] == g.trace
      && (r.out.Ok? <==> Executes(c, o, plan) && (op.Some? && c.autoCommit ==> g.conn.handle == Live))
      && (r.out.Ok? ==>
            r.trace[|g.trace|..] == [Execute(plan.value)] + (if op.Some? then Notice(c, op.value) else []))
      && (r.out.Raised? ==>
            r.trace[|g.trace|..] == (if g.out.Ok? && plan.Ok? && g.conn.cursor then [Execute(plan.value)] else []))
      && (r.out.Raised? ==>
            r.out.error == (if g.out.Raised? then g.out.error
                            else if plan.Raised? then plan.error
                            else if !Executes(c, o, plan) then OptionError
                            else AttributeError))
  {
    IntegrityKeepsSettings(c, o);
    var g := Integrity(c, o);
    assert op.Some? ==> Notice(g.conn, op.value) == Notice(c, op.value);
    Proceed(g, plan, op)
  }

  /** Everything after the integrity check `g`. Its result is not looked at:
      only an exception stops the operation. Whatever it returned, the rest
      runs the argument check, the execute, the commit under `auto_commit`
      and the dispatch, in that order, stopping at the first error. */
  function Proceed(g: Step<bool>, plan: Outcome<Statement>, op: Option<string>): (r: Step<()>)
    ensures r.conn == g.conn
    ensures |g.trace| <= |r.trace| && r.trace[..|g.trace|] == g.trace
    ensures r.out.Ok? <==> Accepted(g, plan) && (op.Some? && g.conn.autoCommit ==> g.conn.handle == Live)
    ensures r.out.Ok? ==>
      r.trace[|g.trace|..] == [Execute(plan.value)] + (if op.Some? then Notice(g.conn, op.value) else [])
    ensures r.out.Raised? ==>
      r.trace[|g.trace|..] == (if g.out.Ok? && plan.Ok? && g.conn.cursor then [Execute(plan.value)] else [])
    ensures r.out.Raised? ==>
      r.out.error == (if g.out.Raised? then g.out.error
                      else if plan.Raised? then plan.error
                      else if !Accepted(g, plan) then OptionError
                      else AttributeError)
  {
    if g.out.Raised? then Step(g.conn, g.oracle, g.trace, Raised(g.out.error))
    else if plan.Raised? then Step(g.conn, g.oracle, g.trace, Raised(plan.error))
    else
      var e := RunStatement(g.conn, g.oracle, plan.value);
      if e.out.Raised? || op.None? then Step(e.conn, e.oracle, g.trace + e.trace, e.out)
      else
        var f := Finish(e.conn, e.oracle, op.value);
        assert g.trace + e.trace + f.trace == g.trace + ([Execute(plan.value)] + f.trace);
        Step(f.conn, f.oracle, g.trace + e.trace + f.trace, f.out)
  }

  /** `create_table(table_name, values, types)`. With matching lengths it
      succeeds exactly when its statement executes; it then executes one
      CREATE TABLE IF NOT EXISTS whose column definitions are a permutation
      of the names each paired with the first type token (in input order
      when no name collides), and neither commits nor dispatches. */
  function CreateTable(c: Conn, o: Oracle, name: string, values: seq<string>, types: seq<string>): (r: Step<()>)
    ensures |values| == |types| ==>
      var g := Integrity(c, o);
      var cols := ColumnRewrite(values, FirstType(types));
      && (r.out.Ok? <==> g.out.Ok? && g.conn.cursor && Succeeds(g.oracle.execs, 0))
      && (r.out.Ok? ==> r.trace == g.trace + [Execute(Statement(CreateTableText(name, cols), []))])
      && multiset(cols) == multiset(Paired(values, FirstType(types)))
      && (NoCollision(values, FirstType(types)) ==> Reverse(cols) == Paired(values, FirstType(types)))
  {
    assert NoCollision(values, FirstType(types)) ==>
      Reverse(ColumnRewrite(values, FirstType(types))) == Paired(values, FirstType(types)) by {
      if NoCollision(values, FirstType(types)) {
        ColumnRewriteInOrder(values, FirstType(types));
      }
    }
    Mutation(c, o, CreateTablePlan(name, values, types), None)
  }

  /** `drop_table(table_name)`: it executes only its DROP TABLE and neither
      commits nor dispatches. */
  function DropTable(c: Conn, o: Oracle, name: string): (r: Step<()>)
    ensures var g := Integrity(c, o);
      && |g.trace| <= |r.trace|
      && (r.out.Ok? <==> g.out.Ok? && g.conn.cursor && Succeeds(g.oracle.execs, 0))
      && (r.out.Ok? ==> r.trace == g.trace + [Execute(Statement("DROP TABLE " + name, []))])
      && (r.out.Raised? ==> r.trace[|g.trace|..] == [] || r.trace[|g.trace|..] == [Execute(DropTableStatement(name))])
  {
    Mutation(c, o, Ok(DropTableStatement(name)), None)
  }

  /** `insert(table, values)`: a successful one executes its INSERT with
      every value spliced into the text and nothing bound, then commits under
      `auto_commit`, then dispatches `transaction_success(path, "insert")`. */
  function Insert(c: Conn, o: Oracle, table: string, values: seq<Value>): (r: Step<()>)
    ensures var g := Integrity(c, o);
      && (r.out.Ok? <==> g.out.Ok? && g.conn.cursor && Succeeds(g.oracle.execs, 0) && (c.autoCommit ==> g.conn.handle == Live))
      && (r.out.Ok? ==> r.trace == g.trace + [Execute(InsertStatement(table, values))] + Notice(c, "insert"))
  {
    var r := Mutation(c, o, Ok(InsertStatement(table, values)), Some("insert"));
    TraceAfter(r.trace, Integrity(c, o).trace);
    r
  }

  /** A trace that starts with `g` is `g` followed by the rest. */
  lemma TraceAfter(t: seq<Action>, g: seq<Action>)
    requires |g| <= |t| && t[..|g|] == g
    ensures t == g + t[|g|..]
  {
  }

  /** `delete(table, column_w, value_w)`. Given both filter arguments or
      neither, a successful one executes a DELETE that binds the value, or
      one that deletes every row; then it commits under `auto_commit` and
      dispatches `transaction_success(path, "delete")`. */
  function Delete(c: Conn, o: Oracle, table: string, column: Option<string>, value: Option<Value>): (r: Step<()>)
    ensures column.None? == value.None? ==>
      var g := Integrity(c, o);
      var stmt := DeletePlan(table, column, value).value;
      && |g.trace| <= |r.trace|
      && (r.out.Ok? <==> g.out.Ok? && g.conn.cursor && Succeeds(g.oracle.execs, 0) && (c.autoCommit ==> g.conn.handle == Live))
      && (r.out.Ok? ==> r.trace[|g.trace|..] == [Execute(stmt)] + Notice(c, "delete"))
      && (column.Some? ==> stmt.params == [value.value])
      && (column.None? ==> stmt == Statement("DELETE FROM " + table, []))
  {
    Mutation(c, o, DeletePlan(table, column, value), Some("delete"))
  }

  /** `update(table, column, value, column_w, value_w)`: a successful one
      executes its UPDATE with the new value bound first, then commits under
      `auto_commit`, then dispatches `transaction_success(path, "update")`. */
  function Update(c: Conn, o: Oracle, table: string, column: string, value: Value,
                  filterColumn: Option<string>, filterValue: Option<Value>): (r: Step<()>)
    ensures var g := Integrity(c, o);
      var stmt := UpdateStatement(table, column, value, filterColumn, filterValue);
      && |g.trace| <= |r.trace|
      && (r.out.Ok? <==> g.out.Ok? && g.conn.cursor && Succeeds(g.oracle.execs, 0) && (c.autoCommit ==> g.conn.handle == Live))
      && (r.out.Ok? ==> r.trace[|g.trace|..] == [Execute(stmt)] + Notice(c, "update"))
  {
    Mutation(c, o, Ok(UpdateStatement(table, column, value, filterColumn, filterValue)), Some("update"))
  }

  /** `select(table, select, column_w, value_w, fetchall, limit, random)`.
      With both filter arguments or neither, a successful one executes its
      SELECT once, commits under `auto_commit`, dispatches
      `transaction_success(path, "select")`, and returns the first row or
      all rows as `fetchall` asks. With exactly one filter argument neither
      execute runs, the commit and the dispatch still happen, and returning
      the unassigned result raises UnboundLocalError. */
  function Select(c: Conn, o: Oracle, table: string, sel: Selection,
                  filterColumn: Option<string>, filterValue: Option<Value>,
                  fetchAll: bool, limit: Option<int>, random: bool): (r: Step<Rows>)
    ensures filterColumn.Some? == filterValue.Some? ==>
      var g := Integrity(c, o);
      var stmt := SelectPlan(table, sel, filterColumn, filterValue, limit, random).value;
      && (r.out.Ok? <==> g.out.Ok? && g.conn.cursor && Succeeds(g.oracle.execs, 0) && (c.autoCommit ==> g.conn.handle == Live))
      && (r.out.Ok? ==> r.out.value == (if fetchAll then AllRows(stmt) else FirstRow(stmt)))
      && (r.out.Ok? ==> r.trace == g.trace + [Execute(stmt)] + Notice(c, "select"))
      && (r.out.Raised? ==> r.out.error != UnboundLocalError)
      && (r.out.Raised? ==>
            r.trace == g.trace + (if g.out.Ok? && g.conn.cursor then [Execute(stmt)] else []))
      && (r.out.Raised? ==>
            r.out.error == (if g.out.Raised? then g.out.error
                            else if !(g.conn.cursor && Succeeds(g.oracle.execs, 0)) then OptionError
                            else AttributeError))
    ensures r.conn == Integrity(c, o).conn
  {
    IntegrityKeepsSettings(c, o);
    var g := Integrity(c, o);
    assert Notice(g.conn, "select") == Notice(c, "select");
    SelectAfter(g, SelectPlan(table, sel, filterColumn, filterValue, limit, random), fetchAll)
  }

  /** Everything `select` does after the integrity check `g`, whose result,
      as in every operation, is not looked at. Without a statement (one
      filter argument) nothing is executed, the commit and the dispatch still
      run, and the method raises UnboundLocalError unless the commit failed
      first. With a statement it executes it, commits under `auto_commit`,
      dispatches `transaction_success(path, "select")` and returns the rows,
      stopping at the first error: OptionError for the execute, AttributeError
      for a commit without a handle. */
  function SelectAfter(g: Step<bool>, plan: Option<Statement>, fetchAll: bool): (r: Step<Rows>)
    ensures r.conn == g.conn
    ensures g.out.Raised? ==> r == Step(g.conn, g.oracle, g.trace, Raised(g.out.error))
    ensures plan.None? && g.out.Ok? ==>
      var commits := !g.conn.autoCommit || g.conn.handle == Live;
      && r.out == Raised(if commits then UnboundLocalError else AttributeError)
      && r.trace == g.trace + (if commits then Notice(g.conn, "select") else [])
    ensures plan.Some? ==>
      var stmt := plan.value;
      && (r.out.Ok? <==> g.out.Ok? && g.conn.cursor && Succeeds(g.oracle.execs, 0) &&
                         (g.conn.autoCommit ==> g.conn.handle == Live))
      && (r.out.Ok? ==> r.out.value == (if fetchAll then AllRows(stmt) else FirstRow(stmt)))
      && (r.out.Ok? ==> r.trace == g.trace + [Execute(stmt)] + Notice(g.conn, "select"))
      && (r.out.Raised? ==>
            r.trace == g.trace + (if g.out.Ok? && g.conn.cursor then [Execute(stmt)] else []))
      && (r.out.Raised? ==>
            r.out.error == (if g.out.Raised? then g.out.error
                            else if !(g.conn.cursor && Succeeds(g.oracle.execs, 0)) then OptionError
                            else AttributeError))
  {
    if g.out.Raised? then Step(g.conn, g.oracle, g.trace, Raised(g.out.error))
    else match plan
      case None =>
        var f := Finish(g.conn, g.oracle, "select");
        Step(f.conn, f.oracle, g.trace + f.trace,
             if f.out.Raised? then Raised(f.out.error) else Raised(UnboundLocalError))
      case Some(stmt) =>
        var e := RunStatement(g.conn, g.oracle, stmt);
        if e.out.Raised? then Step(e.conn, e.oracle, g.trace + e.trace, Raised(e.out.error))
        else
          var f := Finish(e.conn, e.oracle, "select");
          Step(f.conn, f.oracle, g.trace + e.trace + f.trace,
               if f.out.Raised? then Raised(f.out.error)
               else Ok(if fetchAll then AllRows(stmt) else FirstRow(stmt)))
  }

  // ---------------------------------------------------------------------------
  // Properties of the table operations
  // ---------------------------------------------------------------------------

  /** The integrity check does not touch the settings a table operation reads. */
  lemma IntegrityKeepsSettings(c: Conn, o: Oracle)
    ensures Integrity(c, o).conn.path == c.path
    ensures Integrity(c, o).conn.autoCommit == c.autoCommit
  {
    ReconnectMatchesClosedForm(c, o, true);
  }

  /** No statement was executed along the trace. */
  predicate ExecutesNothing(t: seq<Action>) {
    forall k :: 0 <= k < |t| ==> !t[k].Execute?
  }

  lemma IntegrityExecutesNothing(c: Conn, o: Oracle)
    ensures ExecutesNothing(Integrity(c, o).trace)
  {
    IntegrityOnlyConnects(c, o);
  }

  /** Arguments rejected before the execute: nothing is executed at all, and
      nothing is committed or dispatched past the integrity check. */
  lemma RejectedPlanExecutesNothing(c: Conn, o: Oracle, plan: Outcome<Statement>, op: Option<string>)
    requires plan.Raised?
    ensures var g := Integrity(c, o);
      var r := Mutation(c, o, plan, op);
      && r.trace == g.trace
      && ExecutesNothing(r.trace)
      && r.out == (if g.out.Raised? then Raised(g.out.error) else Raised(plan.error))
  {
    IntegrityExecutesNothing(c, o);
  }

  /** `create_table` with fewer or more types than names raises OptionError
      (once past the integrity check) and executes nothing. */
  lemma CreateTableLengthMismatch(c: Conn, o: Oracle, name: string, values: seq<string>, types: seq<string>)
    requires |values| != |types|
    ensures var r := CreateTable(c, o, name, values, types);
      && ExecutesNothing(r.trace)
      && r.out.Raised?
      && (Integrity(c, o).out.Ok? ==> r.out.error == OptionError)
  {
    RejectedPlanExecutesNothing(c, o, CreateTablePlan(name, values, types), None);
  }

  /** `delete` given just one of `column_w` and `value_w` raises OptionError
      (once past the integrity check) without executing, committing or
      dispatching anything. */
  lemma DeleteNeedsBothOrNeither(c: Conn, o: Oracle, table: string, column: Option<string>, value: Option<Value>)
    requires column.None? != value.None?
    ensures var r := Delete(c, o, table, column, value);
      && r.trace == Integrity(c, o).trace
      && ExecutesNothing(r.trace)
      && r.out.Raised?
      && (Integrity(c, o).out.Ok? ==> r.out.error == OptionError)
  {
    RejectedPlanExecutesNothing(c, o, DeletePlan(table, column, value), Some("delete"));
  }

  /** `update` given only one filter argument behaves in every respect like
      `update` given neither: it rewrites every row. */
  lemma UpdateOneFilterUpdatesEveryRow(c: Conn, o: Oracle, table: string, column: string, value: Value,
                                       filterColumn: Option<string>, filterValue: Option<Value>)
    requires filterColumn.Some? != filterValue.Some?
    ensures Update(c, o, table, column, value, filterColumn, filterValue) ==
              Update(c, o, table, column, value, None, None)
  {
    UpdateOneFilterIsUnfiltered(table, column, value, filterColumn, filterValue);
  }

  /** When `reconnects` is not positive and the handle is None, the integrity
      check lets a data operation go on: under `auto_commit` a statement that
      the engine accepts on an old cursor is followed by AttributeError from
      the commit, and `transaction_success` is never dispatched. */
  lemma StaleCursorFailsAtCommit(c: Conn, o: Oracle, table: string, values: seq<Value>)
    requires c.reconnects <= 0 && c.handle == Null && c.cursor && c.autoCommit
    requires Succeeds(o.execs, 0)
    ensures var r := Insert(c, o, table, values);
      && r.trace == [Execute(InsertStatement(table, values))]
      && r.out == Raised(AttributeError)
  {
    IntegrityWithoutReconnects(c, o);
  }

  /** `select` given just one filter argument executes nothing, yet under a
      usable handle commits and dispatches `transaction_success(path,
      "select")`, and then raises UnboundLocalError. */
  lemma SelectOneFilter(c: Conn, o: Oracle, table: string, sel: Selection,
                        filterColumn: Option<string>, filterValue: Option<Value>,
                        fetchAll: bool, limit: Option<int>, random: bool)
    requires filterColumn.Some? != filterValue.Some?
    ensures var g := Integrity(c, o);
      var r := Select(c, o, table, sel, filterColumn, filterValue, fetchAll, limit, random);
      && ExecutesNothing(r.trace)
      && r.out.Raised?
      && (g.out.Ok? && (!c.autoCommit || g.conn.handle == Live) ==>
            r.out.error == UnboundLocalError && r.trace == g.trace + Notice(c, "select"))
  {
    SelectOneFilterOutcome(c, o, table, sel, filterColumn, filterValue, fetchAll, limit, random);
    SelectOneFilterExecutesNothing(c, o, table, sel, filterColumn, filterValue, fetchAll, limit, random);
  }

  lemma SelectOneFilterOutcome(c: Conn, o: Oracle, table: string, sel: Selection,
                               filterColumn: Option<string>, filterValue: Option<Value>,
                               fetchAll: bool, limit: Option<int>, random: bool)
    requires filterColumn.Some? != filterValue.Some?
    ensures var g := Integrity(c, o);
      var r := Select(c, o, table, sel, filterColumn, filterValue, fetchAll, limit, random);
      && r.out.Raised?
      && (g.out.Ok? && (!c.autoCommit || g.conn.handle == Live) ==>
            r.out.error == UnboundLocalError && r.trace == g.trace + Notice(c, "select"))
  {
    IntegrityKeepsSettings(c, o);
    SelectWithoutStatement(c, o, table, sel, filterColumn, filterValue, fetchAll, limit, random);
  }

  lemma SelectOneFilterExecutesNothing(c: Conn, o: Oracle, table: string, sel: Selection,
                                       filterColumn: Option<string>, filterValue: Option<Value>,
                                       fetchAll: bool, limit: Option<int>, random: bool)
    requires filterColumn.Some? != filterValue.Some?
    ensures ExecutesNothing(Select(c, o, table, sel, filterColumn, filterValue, fetchAll, limit, random).trace)
  {
    IntegrityExecutesNothing(c, o);
    SelectWithoutStatement(c, o, table, sel, filterColumn, filterValue, fetchAll, limit, random);
    var g := Integrity(c, o);
    if g.out.Ok? {
      var f := Finish(g.conn, g.oracle, "select");
      FinishExecutesNothing(g.conn, g.oracle, "select");
      ExecutesNothingConcat(g.trace, f.trace);
    }
  }

  lemma FinishExecutesNothing(c: Conn, o: Oracle, op: string)
    ensures ExecutesNothing(Finish(c, o, op).trace)
  {
    var t := Notice(c, op);
    assert forall k :: 0 <= k < |t| ==> t[k] == CommitHandle || t[k].Fire?;
  }

  lemma ExecutesNothingConcat(a: seq<Action>, b: seq<Action>)
    requires ExecutesNothing(a) && ExecutesNothing(b)
    ensures ExecutesNothing(a + b)
  {
    forall k | 0 <= k < |a + b|
      ensures !(a + b)[k].Execute?
    {
      if k >= |a| {
        assert (a + b)[k] == b[k - |a|];
      }
    }
  }

  /** The steps of `select` when no statement is built. */
  lemma SelectWithoutStatement(c: Conn, o: Oracle, table: string, sel: Selection,
                               filterColumn: Option<string>, filterValue: Option<Value>,
                               fetchAll: bool, limit: Option<int>, random: bool)
    requires filterColumn.Some? != filterValue.Some?
    ensures var g := Integrity(c, o);
      var r := Select(c, o, table, sel, filterColumn, filterValue, fetchAll, limit, random);
      var f := Finish(g.conn, g.oracle, "select");
      && (g.out.Raised? ==> r.trace == g.trace && r.out == Raised(g.out.error))
      && (g.out.Ok? ==>
            r.trace == g.trace + f.trace &&
            r.out == if f.out.Raised? then Raised(f.out.error) else Raised(UnboundLocalError))
  {
  }

  /** The tail of a data operation dispatches only `transaction_success`. */
  lemma NoticeFiresKnownEvents(c: Conn, op: string)
    ensures FiresKnownEvents(Notice(c, op))
  {
    var t := Notice(c, op);
    assert forall k :: 0 <= k < |t| && t[k].Fire? ==> t[k] == Fire(TransactionSuccessEvent, [Text(c.path), Text(op)]);
  }

  lemma OnlyConnectsFiresKnownEvents(t: seq<Action>)
    requires OnlyConnects(t)
    ensures FiresKnownEvents(t)
  {
  }

  /** Every dispatch of a table operation names one of the seven events, so
      on a well-formed connection none of them can raise KeyError. */
  lemma MutationFiresKnownEvents(c: Conn, o: Oracle, plan: Outcome<Statement>, op: Option<string>)
    ensures FiresKnownEvents(Mutation(c, o, plan, op).trace)
  {
    var g := Integrity(c, o);
    IntegrityOnlyConnects(c, o);
    OnlyConnectsFiresKnownEvents(g.trace);
    IntegrityKeepsSettings(c, o);
    ProceedFiresKnownEvents(g, plan, op);
  }

  lemma ProceedFiresKnownEvents(g: Step<bool>, plan: Outcome<Statement>, op: Option<string>)
    requires FiresKnownEvents(g.trace)
    ensures FiresKnownEvents(Proceed(g, plan, op).trace)
  {
    if g.out.Ok? && plan.Ok? {
      var e := RunStatement(g.conn, g.oracle, plan.value);
      KnownEventsConcat(g.trace, e.trace);
      if e.out.Ok? && op.Some? {
        var f := Finish(e.conn, e.oracle, op.value);
        NoticeFiresKnownEvents(e.conn, op.value);
        KnownEventsConcat(g.trace + e.trace, f.trace);
      }
    }
  }

  lemma SelectFiresKnownEvents(c: Conn, o: Oracle, table: string, sel: Selection,
                               filterColumn: Option<string>, filterValue: Option<Value>,
                               fetchAll: bool, limit: Option<int>, random: bool)
    ensures FiresKnownEvents(Select(c, o, table, sel, filterColumn, filterValue, fetchAll, limit, random).trace)
  {
    var g := Integrity(c, o);
    IntegrityOnlyConnects(c, o);
    OnlyConnectsFiresKnownEvents(g.trace);
    SelectAfterFiresKnownEvents(g, SelectPlan(table, sel, filterColumn, filterValue, limit, random), fetchAll);
  }

  lemma SelectAfterFiresKnownEvents(g: Step<bool>, plan: Option<Statement>, fetchAll: bool)
    requires FiresKnownEvents(g.trace)
    ensures FiresKnownEvents(SelectAfter(g, plan, fetchAll).trace)
  {
    NoticeFiresKnownEvents(g.conn, "select");
    if g.out.Ok? {
      match plan
      case None =>
        var f := Finish(g.conn, g.oracle, "select");
        KnownEventsConcat(g.trace, f.trace);
      case Some(stmt) =>
        var e := RunStatement(g.conn, g.oracle, stmt);
        KnownEventsConcat(g.trace, e.trace);
        if e.out.Ok? {
          var f := Finish(e.conn, e.oracle, "select");
          KnownEventsConcat(g.trace + e.trace, f.trace);
        }
    }
  }

  /** Every table operation keeps a connection well formed and dispatches
      only the seven events. */
  lemma TableOperationsKeepValid(c: Conn, o: Oracle, plan: Outcome<Statement>, op: Option<string>,
                                 table: string, sel: Selection,
                                 filterColumn: Option<string>, filterValue: Option<Value>,
                                 fetchAll: bool, limit: Option<int>, random: bool)
    requires Valid(c)
    ensures Valid(Mutation(c, o, plan, op).conn)
    ensures Valid(Select(c, o, table, sel, filterColumn, filterValue, fetchAll, limit, random).conn)
    ensures FiresKnownEvents(Mutation(c, o, plan, op).trace)
    ensures FiresKnownEvents(Select(c, o, table, sel, filterColumn, filterValue, fetchAll, limit, random).trace)
  {
    LifecycleKeepsValid(c, o);
    MutationFiresKnownEvents(c, o, plan, op);
    SelectFiresKnownEvents(c, o, table, sel, filterColumn, filterValue, fetchAll, limit, random);
  }
}

=== FILE: lifecycle.dfy ===
/**
 The connection record and its lifecycle: construction, `connect`, the bounded
 reconnect loop, the integrity check run before every table operation,
 `close`, `commit` and `rollback`.

 The engine is an oracle. Each call to `sqlite3.connect` takes the next entry
 of `opens` (true: the database opened; false: it raised DatabaseError), and
 each `execute` takes the next entry of `execs`; an exhausted sequence reads
 as a failure. Every call yields the new connection record, the rest of the
 oracle, the trace of what it did in order, and its outcome.
 */
module Lifecycle {
  import opened Values
  import opened Registry
  import opened Statements

  /** The `_con` attribute: never assigned (no `auto_connect` and no
      `connect()` yet), assigned None, or holding an open engine connection. */
  datatype Handle = Unset | Null | Live

  /** A `Connection` object. `cursor` says whether `_handler` has ever been
      assigned; `commitShadowed` and `connectShadowed` say whether the
      constructor replaced the `commit` and `connect` methods with None. */
  datatype Conn = Conn(
    path: string,
    autoCommit: bool,
    reconnects: int,
    autoConnect: bool,
    listeners: Listeners,
    handle: Handle,
    cursor: bool,
    commitShadowed: bool,
    connectShadowed: bool)

  /** The outcomes the engine will give to the coming opens and executes. */
  datatype Oracle = Oracle(opens: seq<bool>, execs: seq<bool>)

  /** What a call does, in order. A `Fire` is one call of `_dispatch_listener`. */
  datatype Action =
    | OpenAttempt(path: string)
    | Wait(seconds: int)
    | Fire(event: string, args: seq<Value>)
    | Execute(stmt: Statement)
    | CommitHandle
    | RollbackHandle
    | CloseHandle

  /** The connection, oracle and trace after a call, and what it returned or raised. */
  datatype Step<T> = Step(conn: Conn, oracle: Oracle, trace: seq<Action>, out: Outcome<T>)

  // ---------------------------------------------------------------------------
  // The oracle
  // ---------------------------------------------------------------------------

  /** Whether the `k`-th coming engine call succeeds. */
  predicate Succeeds(s: seq<bool>, k: nat) {
    k < |s| && s[k]
  }

  /** The outcomes left after `k` engine calls. */
  function Drop(s: seq<bool>, k: nat): (r: seq<bool>)
    ensures |r| == if k >= |s| then 0 else |s| - k
    ensures forall j :: 0 <= j < |r| ==> r[j] == s[j + k]
  {
    if k >= |s| then [] else s[k..]
  }

  lemma DropDrop(s: seq<bool>, k: nat)
    ensures Drop(Drop(s, 1), k) == Drop(s, k + 1)
  {
  }

  // ---------------------------------------------------------------------------
  // Counting what a trace did
  // ---------------------------------------------------------------------------

  function Attempts(t: seq<Action>): nat {
    if |t| == 0 then 0 else (if t[0].OpenAttempt? then 1 else 0) + Attempts(t[1..])
  }

  function Fired(t: seq<Action>, event: string): nat {
    if |t| == 0 then 0 else (if t[0].Fire? && t[0].event == event then 1 else 0) + Fired(t[1..], event)
  }

  lemma {:induction false} CountsAdd(a: seq<Action>, b: seq<Action>, event: string)
    ensures Attempts(a + b) == Attempts(a) + Attempts(b)
    ensures Fired(a + b, event) == Fired(a, event) + Fired(b, event)
  {
    if |a| == 0 {
      assert a + b == b;
    } else {
      assert (a + b)[0] == a[0];
      assert (a + b)[1..] == a[1..] + b;
      CountsAdd(a[1..], b, event);
    }
  }

  // ---------------------------------------------------------------------------
  // The reconnect loop
  // ---------------------------------------------------------------------------

  /** `_attempt_reconnect` from loop index `i` on. Attempt `i` opens the
      database; on success it dispatches `reconnect(path, i + 1)` and breaks
      without waiting. On failure the last attempt dispatches `disconnect`
      and, when `errorOnFail`, raises ConnectError before the wait; every
      other failure waits `1 + (reconnects - 1)` seconds and goes on. */
  function ReconnectFrom(c: Conn, o: Oracle, errorOnFail: bool, i: nat): (r: Step<()>)
    ensures r.conn == c || r.conn == c.(handle := Live, cursor := true)
    ensures r.oracle.execs == o.execs
    ensures r.out.Raised? ==> errorOnFail && r.out.error == ConnectError && r.conn == c
    ensures i >= c.reconnects ==> r == Step(c, o, [], Ok(()))
    ensures i < c.reconnects ==> |r.trace| >= 2 && r.trace[0] == OpenAttempt(c.path)
    decreases c.reconnects - i
  {
    if i >= c.reconnects then Step(c, o, [], Ok(()))
    else
      var o' := o.(opens := Drop(o.opens, 1));
      var attempt := [OpenAttempt(c.path)];
      if Succeeds(o.opens, 0) then
        Step(c.(handle := Live, cursor := true), o',
             attempt + [Fire(ReconnectEvent, [Text(c.path), Number(i + 1)])], Ok(()))
      else
        var last := i == c.reconnects - 1;
        var gaveUp := if last then [Fire(DisconnectEvent, [Text(c.path)])] else [];
        if last && errorOnFail then
          Step(c, o', attempt + gaveUp, Raised(ConnectError))
        else
          var rest := ReconnectFrom(c, o', errorOnFail, i + 1);
          rest.(trace := attempt + gaveUp + [Wait(1 + (c.reconnects - 1))] + rest.trace)
  }

  /** `_attempt_reconnect(error_on_fail)`: it leaves the settings and the
      registry alone, at most opens a live handle with a cursor, never
      executes, and can only raise ConnectError, and only under
      `error_on_fail`. */
  function AttemptReconnect(c: Conn, o: Oracle, errorOnFail: bool): (r: Step<()>)
    ensures r.conn == c || r.conn == c.(handle := Live, cursor := true)
    ensures r.oracle.execs == o.execs
    ensures r.out.Raised? ==> errorOnFail && r.out.error == ConnectError && r.conn == c
    ensures c.reconnects <= 0 ==> r == Step(c, o, [], Ok(()))
    ensures c.reconnects > 0 ==> |r.trace| >= 2 && r.trace[0] == OpenAttempt(c.path)
  {
    ReconnectFrom(c, o, errorOnFail, 0)
  }

  /** The first of the next `n` opens that succeeds, if any. */
  function FirstSuccess(s: seq<bool>, n: nat): (r: Option<nat>)
    ensures r.Some? ==> r.value < n && Succeeds(s, r.value)
    ensures r.Some? ==> forall j :: 0 <= j < r.value ==> !Succeeds(s, j)
    ensures r.None? ==> forall j :: 0 <= j < n ==> !Succeeds(s, j)
    decreases n
  {
    if n == 0 then None
    else if Succeeds(s, 0) then Some(0)
    else match FirstSuccess(Drop(s, 1), n - 1)
      case Some(k) =>
        FailuresShift(s, k);
        Some(k + 1)
      case None =>
        FailuresShift(s, n - 1);
        None
  }

  /** A failing first open followed by `m` failing opens makes `m + 1`. */
  lemma FailuresShift(s: seq<bool>, m: nat)
    requires !Succeeds(s, 0)
    requires forall j :: 0 <= j < m ==> !Succeeds(Drop(s, 1), j)
    ensures forall j :: 0 <= j < m + 1 ==> !Succeeds(s, j)
  {
    forall j | 0 < j < m + 1
      ensures !Succeeds(s, j)
    {
      assert !Succeeds(Drop(s, 1), j - 1);
    }
  }

  /** `k` failed attempts, each followed by its wait. */
  function FailedAttempts(path: string, k: nat, seconds: int): (t: seq<Action>)
    ensures |t| == 2 * k
  {
    if k == 0 then [] else [OpenAttempt(path), Wait(seconds)] + FailedAttempts(path, k - 1, seconds)
  }

  /** Failed attempts count as attempts and dispatch nothing. */
  lemma {:induction false} FailedAttemptsCounts(path: string, k: nat, seconds: int, event: string)
    ensures Attempts(FailedAttempts(path, k, seconds)) == k
    ensures Fired(FailedAttempts(path, k, seconds), event) == 0
  {
    if k > 0 {
      var t := FailedAttempts(path, k, seconds);
      assert t[1..][1..] == FailedAttempts(path, k - 1, seconds);
      FailedAttemptsCounts(path, k - 1, seconds, event);
    }
  }

  /** The reconnect loop from index `i` on, in closed form: with `m` attempts
      left, either the `k`-th coming open is the first to succeed, or all `m`
      fail. */
  function ClosedFormFrom(c: Conn, o: Oracle, errorOnFail: bool, i: nat): Step<()> {
    if i >= c.reconnects then Step(c, o, [], Ok(()))
    else
      var m: nat := c.reconnects - i;
      ClosedFormGiven(c, o, errorOnFail, i, m, FirstSuccess(o.opens, m))
  }

  /** The closed form once the first successful open among `m` is known. */
  function ClosedFormGiven(c: Conn, o: Oracle, errorOnFail: bool, i: nat, m: nat, found: Option<nat>): Step<()>
    requires m >= 1
  {
    var n := c.reconnects;
    match found
    case Some(k) =>
      Step(c.(handle := Live, cursor := true), o.(opens := Drop(o.opens, k + 1)),
           FailedAttempts(c.path, k, n) + [OpenAttempt(c.path), Fire(ReconnectEvent, [Text(c.path), Number(i + k + 1)])],
           Ok(()))
    case None =>
      var tried := FailedAttempts(c.path, m - 1, n) + [OpenAttempt(c.path), Fire(DisconnectEvent, [Text(c.path)])];
      if errorOnFail then Step(c, o.(opens := Drop(o.opens, m)), tried, Raised(ConnectError))
      else Step(c, o.(opens := Drop(o.opens, m)), tried + [Wait(n)], Ok(()))
  }

  function ReconnectClosedForm(c: Conn, o: Oracle, errorOnFail: bool): Step<()> {
    ClosedFormFrom(c, o, errorOnFail, 0)
  }

  function Later(found: Option<nat>): Option<nat> {
    match found
    case Some(k) => Some(k + 1)
    case None => None
  }

  /** After a failing open, the first success among `m` is one later than
      the first success among the `m - 1` after it. */
  lemma FirstSuccessAfterFailure(s: seq<bool>, m: nat)
    requires m >= 1 && !Succeeds(s, 0)
    ensures FirstSuccess(s, m) == Later(FirstSuccess(Drop(s, 1), m - 1))
  {
  }

  /** One failed, non-final attempt puts an open and a wait in front of the
      closed form of the remaining attempts. */
  lemma ClosedFormAfterFailure(c: Conn, o: Oracle, errorOnFail: bool, i: nat)
    requires i < c.reconnects - 1 && !Succeeds(o.opens, 0)
    ensures var rest := ClosedFormFrom(c, o.(opens := Drop(o.opens, 1)), errorOnFail, i + 1);
      ClosedFormFrom(c, o, errorOnFail, i) ==
        rest.(trace := [OpenAttempt(c.path), Wait(c.reconnects)] + rest.trace)
  {
    var m: nat := c.reconnects - i;
    var o' := o.(opens := Drop(o.opens, 1));
    var found := FirstSuccess(o'.opens, m - 1);
    FirstSuccessAfterFailure(o.opens, m);
    ClosedFormGivenShift(c, o, errorOnFail, i, m, found);
  }

  lemma ClosedFormGivenShift(c: Conn, o: Oracle, errorOnFail: bool, i: nat, m: nat, found: Option<nat>)
    requires m >= 2
    ensures var rest := ClosedFormGiven(c, o.(opens := Drop(o.opens, 1)), errorOnFail, i + 1, m - 1, found);
      ClosedFormGiven(c, o, errorOnFail, i, m, Later(found)) ==
        rest.(trace := [OpenAttempt(c.path), Wait(c.reconnects)] + rest.trace)
  {
    match found
    case Some(k) => ClosedFormFoundShift(c, o, errorOnFail, i, m, k);
    case None => ClosedFormExhaustedShift(c, o, errorOnFail, i, m);
  }

  lemma ClosedFormFoundShift(c: Conn, o: Oracle, errorOnFail: bool, i: nat, m: nat, k: nat)
    requires m >= 2
    ensures var rest := ClosedFormGiven(c, o.(opens := Drop(o.opens, 1)), errorOnFail, i + 1, m - 1, Some(k));
      ClosedFormGiven(c, o, errorOnFail, i, m, Some(k + 1)) ==
        rest.(trace := [OpenAttempt(c.path), Wait(c.reconnects)] + rest.trace)
  {
    var n := c.reconnects;
    var lead := [OpenAttempt(c.path), Wait(n)];
    DropDrop(o.opens, k + 1);
    var fails := FailedAttempts(c.path, k, n);
    assert FailedAttempts(c.path, k + 1, n) == lead + fails;
    var tail := [OpenAttempt(c.path), Fire(ReconnectEvent, [Text(c.path), Number(i + k + 2)])];
    assert (lead + fails) + tail == lead + (fails + tail);
  }

  lemma ClosedFormExhaustedShift(c: Conn, o: Oracle, errorOnFail: bool, i: nat, m: nat)
    requires m >= 2
    ensures var rest := ClosedFormGiven(c, o.(opens := Drop(o.opens, 1)), errorOnFail, i + 1, m - 1, None);
      ClosedFormGiven(c, o, errorOnFail, i, m, None) ==
        rest.(trace := [OpenAttempt(c.path), Wait(c.reconnects)] + rest.trace)
  {
    var n := c.reconnects;
    var lead := [OpenAttempt(c.path), Wait(n)];
    DropDrop(o.opens, m - 1);
    var fails := FailedAttempts(c.path, m - 2, n);
    assert FailedAttempts(c.path, m - 1, n) == lead + fails;
    var tail := [OpenAttempt(c.path), Fire(DisconnectEvent, [Text(c.path)])];
    assert (lead + fails) + tail == lead + (fails + tail);
    assert (lead + fails + tail) + [Wait(n)] == lead + (fails + tail + [Wait(n)]);
  }

  /** The loop agrees with its closed form from every index on. */
  lemma {:induction false} ReconnectFromMatchesClosedForm(c: Conn, o: Oracle, errorOnFail: bool, i: nat)
    ensures ReconnectFrom(c, o, errorOnFail, i) == ClosedFormFrom(c, o, errorOnFail, i)
    decreases c.reconnects - i
  {
    if i < c.reconnects && !Succeeds(o.opens, 0) {
      if i == c.reconnects - 1 {
        LastAttemptMatchesClosedForm(c, o, errorOnFail, i);
      } else {
        var o' := o.(opens := Drop(o.opens, 1));
        ReconnectFromMatchesClosedForm(c, o', errorOnFail, i + 1);
        FailedAttemptMatchesClosedForm(c, o, errorOnFail, i);
      }
    }
  }

  /** A failing last attempt agrees with the closed form. */
  lemma LastAttemptMatchesClosedForm(c: Conn, o: Oracle, errorOnFail: bool, i: nat)
    requires i == c.reconnects - 1 && !Succeeds(o.opens, 0)
    ensures ReconnectFrom(c, o, errorOnFail, i) == ClosedFormFrom(c, o, errorOnFail, i)
  {
    assert FirstSuccess(o.opens, 1) == None;
  }

  /** A failing non-final attempt agrees with the closed form once the
      attempts after it do. */
  lemma FailedAttemptMatchesClosedForm(c: Conn, o: Oracle, errorOnFail: bool, i: nat)
    requires i < c.reconnects - 1 && !Succeeds(o.opens, 0)
    requires var o' := o.(opens := Drop(o.opens, 1));
      ReconnectFrom(c, o', errorOnFail, i + 1) == ClosedFormFrom(c, o', errorOnFail, i + 1)
    ensures ReconnectFrom(c, o, errorOnFail, i) == ClosedFormFrom(c, o, errorOnFail, i)
  {
    var o' := o.(opens := Drop(o.opens, 1));
    ClosedFormAfterFailure(c, o, errorOnFail, i);
    FailedAttemptLead(c.path, c.reconnects, ReconnectFrom(c, o', errorOnFail, i + 1).trace);
  }

  lemma FailedAttemptLead(path: string, n: int, t: seq<Action>)
    ensures [OpenAttempt(path)] + [] + [Wait(1 + (n - 1))] + t == [OpenAttempt(path), Wait(n)] + t
  {
    assert [OpenAttempt(path)] + [] + [Wait(1 + (n - 1))] == [OpenAttempt(path), Wait(n)];
  }

  /** `_attempt_reconnect` is its closed form. */
  lemma ReconnectMatchesClosedForm(c: Conn, o: Oracle, errorOnFail: bool)
    ensures AttemptReconnect(c, o, errorOnFail) == ReconnectClosedForm(c, o, errorOnFail)
  {
    ReconnectFromMatchesClosedForm(c, o, errorOnFail, 0);
  }

  /** With `reconnects <= 0` the loop does nothing at all, not even raise. */
  lemma ReconnectNoAttempts(c: Conn, o: Oracle, errorOnFail: bool)
    requires c.reconnects <= 0
    ensures AttemptReconnect(c, o, errorOnFail) == Step(c, o, [], Ok(()))
  {
  }

  /** A single action counts as an attempt exactly when it is one, and as a
      dispatch of `event` exactly when it dispatches that event. */
  lemma CountsOfOne(a: Action, event: string)
    ensures Attempts([a]) == (if a.OpenAttempt? then 1 else 0)
    ensures Fired([a], event) == if a.Fire? && a.event == event then 1 else 0
  {
    assert [a][1..] == [];
  }

  /** An attempt followed by one more action. */
  lemma CountsOfAttemptThen(path: string, a: Action, event: string)
    ensures Attempts([OpenAttempt(path), a]) == 1 + (if a.OpenAttempt? then 1 else 0)
    ensures Fired([OpenAttempt(path), a], event) == if a.Fire? && a.event == event then 1 else 0
    ensures Attempts([a]) == (if a.OpenAttempt? then 1 else 0)
    ensures Fired([a], event) == if a.Fire? && a.event == event then 1 else 0
  {
    var t := [OpenAttempt(path), a];
    CountsOfOne(a, event);
    assert t[1..] == [a];
    assert Attempts(t) == 1 + Attempts([a]);
    assert Fired(t, event) == Fired([a], event);
  }

  /** How many attempts the loop makes and how often it dispatches `event`:
      `k + 1` attempts and one `reconnect` when the `k`-th open is the first
      to succeed, `reconnects` attempts and one `disconnect` when all fail. */
  lemma ReconnectCounts(c: Conn, o: Oracle, errorOnFail: bool, event: string)
    ensures var r := AttemptReconnect(c, o, errorOnFail);
      var n := c.reconnects;
      && (n <= 0 ==> Attempts(r.trace) == 0 && Fired(r.trace, event) == 0)
      && (n > 0 && FirstSuccess(o.opens, n).Some? ==>
            && Attempts(r.trace) == FirstSuccess(o.opens, n).value + 1
            && Fired(r.trace, event) == if event == ReconnectEvent then 1 else 0)
      && (n > 0 && FirstSuccess(o.opens, n).None? ==>
            && Attempts(r.trace) == n
            && Fired(r.trace, event) == if event == DisconnectEvent then 1 else 0)
  {
    ReconnectMatchesClosedForm(c, o, errorOnFail);
    var n := c.reconnects;
    if n > 0 {
      match FirstSuccess(o.opens, n)
      case Some(k) => FoundCounts(c.path, k, n, event);
      case None => ExhaustedCounts(c.path, n, event);
    }
  }

  /** `k` failed attempts and then a successful `k + 1`-th. */
  lemma FoundCounts(path: string, k: nat, n: int, event: string)
    ensures var t := FailedAttempts(path, k, n) + [OpenAttempt(path), Fire(ReconnectEvent, [Text(path), Number(k + 1)])];
      && Attempts(t) == k + 1
      && Fired(t, event) == if event == ReconnectEvent then 1 else 0
  {
    var last := [OpenAttempt(path), Fire(ReconnectEvent, [Text(path), Number(k + 1)])];
    FailedAttemptsCounts(path, k, n, event);
    CountsOfAttemptThen(path, last[1], event);
    CountsAdd(FailedAttempts(path, k, n), last, event);
  }

  /** `n` failed attempts, the last one dispatching `disconnect`, with or
      without the final wait. */
  lemma ExhaustedCounts(path: string, n: nat, event: string)
    requires n >= 1
    ensures var t := FailedAttempts(path, n - 1, n) + [OpenAttempt(path), Fire(DisconnectEvent, [Text(path)])];
      && Attempts(t) == n && Attempts(t + [Wait(n)]) == n
      && Fired(t, event) == (if event == DisconnectEvent then 1 else 0)
      && Fired(t + [Wait(n)], event) == (if event == DisconnectEvent then 1 else 0)
  {
    var tried := [OpenAttempt(path), Fire(DisconnectEvent, [Text(path)])];
    var fails := FailedAttempts(path, n - 1, n);
    FailedAttemptsCounts(path, n - 1, n, event);
    CountsOfAttemptThen(path, tried[1], event);
    CountsOfOne(Wait(n), event);
    CountsAdd(fails, tried, event);
    CountsAdd(fails + tried, [Wait(n)], event);
  }

  /** The loop stops at the first open that succeeds: it made that many
      attempts, dispatched `reconnect` once with the 1-based attempt number
      last, never dispatched `disconnect`, and left a live handle. */
  lemma ReconnectStopsAtFirstSuccess(c: Conn, o: Oracle, errorOnFail: bool)
    requires c.reconnects > 0
    requires FirstSuccess(o.opens, c.reconnects).Some?
    ensures var k := FirstSuccess(o.opens, c.reconnects).value;
      var r := AttemptReconnect(c, o, errorOnFail);
      && r.out == Ok(())
      && r.conn == c.(handle := Live, cursor := true)
      && Attempts(r.trace) == k + 1 <= c.reconnects
      && r.trace[|r.trace| - 1] == Fire(ReconnectEvent, [Text(c.path), Number(k + 1)])
      && Fired(r.trace, ReconnectEvent) == 1
      && Fired(r.trace, DisconnectEvent) == 0
  {
    ReconnectMatchesClosedForm(c, o, errorOnFail);
    ReconnectCounts(c, o, errorOnFail, ReconnectEvent);
    ReconnectCounts(c, o, errorOnFail, DisconnectEvent);
  }

  /** When every attempt fails the loop made exactly `reconnects` attempts,
      dispatched `disconnect` exactly once and `reconnect` never, left the
      handle alone, and raised ConnectError exactly when `errorOnFail`. */
  lemma ReconnectExhausted(c: Conn, o: Oracle, errorOnFail: bool)
    requires c.reconnects > 0
    requires FirstSuccess(o.opens, c.reconnects).None?
    ensures var r := AttemptReconnect(c, o, errorOnFail);
      && r.conn == c
      && Attempts(r.trace) == c.reconnects
      && Fired(r.trace, DisconnectEvent) == 1
      && Fired(r.trace, ReconnectEvent) == 0
      && r.out == if errorOnFail then Raised(ConnectError) else Ok(())
  {
    ReconnectMatchesClosedForm(c, o, errorOnFail);
    ReconnectCounts(c, o, errorOnFail, ReconnectEvent);
    ReconnectCounts(c, o, errorOnFail, DisconnectEvent);
  }

  /** Over all inputs: at most `reconnects` attempts (none when it is not
      positive); `disconnect` is dispatched once exactly when every attempt
      failed; ConnectError is raised exactly when, in addition, success was
      required; and nothing else is ever raised. */
  lemma ReconnectBounds(c: Conn, o: Oracle, errorOnFail: bool)
    ensures var r := AttemptReconnect(c, o, errorOnFail);
      var allFailed := c.reconnects > 0 && FirstSuccess(o.opens, c.reconnects).None?;
      && Attempts(r.trace) <= (if c.reconnects > 0 then c.reconnects else 0)
      && (Fired(r.trace, DisconnectEvent) == if allFailed then 1 else 0)
      && (r.out.Raised? <==> allFailed && errorOnFail)
      && (r.out.Raised? ==> r.out.error == ConnectError)
  {
    if c.reconnects <= 0 {
      ReconnectNoAttempts(c, o, errorOnFail);
    } else if FirstSuccess(o.opens, c.reconnects).Some? {
      ReconnectStopsAtFirstSuccess(c, o, errorOnFail);
    } else {
      ReconnectExhausted(c, o, errorOnFail);
    }
  }

  // ---------------------------------------------------------------------------
  // Construction, connect, integrity, close, commit, rollback
  // ---------------------------------------------------------------------------

  /** The body shared by `connect()` and the `auto_connect` branch of the
      constructor: one open; on success a cursor and `connect(path)`; on
      failure the reconnect loop without `error_on_fail`, after which the
      handle is set to None whatever the loop achieved. */
  function OpenOrReconnect(c: Conn, o: Oracle): (r: Step<()>)
    ensures Succeeds(o.opens, 0) ==>
      r == Step(c.(handle := Live, cursor := true), o.(opens := Drop(o.opens, 1)),
                [OpenAttempt(c.path), Fire(ConnectEvent, [Text(c.path)])], Ok(()))
    ensures !Succeeds(o.opens, 0) ==> r.conn.handle == Null && Fired(r.trace, ConnectEvent) == 0
    ensures !Succeeds(o.opens, 0) ==>
      var l := AttemptReconnect(c, o.(opens := Drop(o.opens, 1)), false);
      r == Step(l.conn.(handle := Null), l.oracle, [OpenAttempt(c.path)] + l.trace, Ok(()))
    ensures r.out == Ok(())
    ensures |r.trace| >= 1 && r.trace[0] == OpenAttempt(c.path)
  {
    var o' := o.(opens := Drop(o.opens, 1));
    if Succeeds(o.opens, 0) then
      Step(c.(handle := Live, cursor := true), o', [OpenAttempt(c.path), Fire(ConnectEvent, [Text(c.path)])], Ok(()))
    else
      var r := AttemptReconnect(c, o', false);
      ReconnectBounds(c, o', false);
      ReconnectCounts(c, o', false, ConnectEvent);
      CountsOfOne(OpenAttempt(c.path), ConnectEvent);
      CountsAdd([OpenAttempt(c.path)], r.trace, ConnectEvent);
      Step(r.conn.(handle := Null), r.oracle, [OpenAttempt(c.path)] + r.trace, Ok(()))
  }

  /** `Connection(path, auto_commit, reconnects, auto_connect)`. */
  function New(path: string, autoCommit: bool, reconnects: int, autoConnect: bool, o: Oracle): (r: Step<()>)
    ensures r.out == Ok(())
    ensures r.conn.path == path && r.conn.autoCommit == autoCommit && r.conn.reconnects == reconnects
    ensures r.conn.autoConnect == autoConnect
    ensures r.conn.listeners == InitialListeners()
    ensures r.conn.commitShadowed == autoCommit
    ensures r.conn.connectShadowed == autoConnect
    ensures !autoConnect ==> r.conn.handle == Unset && !r.conn.cursor && r.trace == [] && r.oracle == o
    ensures autoConnect && Succeeds(o.opens, 0) ==> r.conn.handle == Live && r.trace == [OpenAttempt(path), Fire(ConnectEvent, [Text(path)])]
    ensures autoConnect && !Succeeds(o.opens, 0) ==> r.conn.handle == Null
    ensures autoConnect && !Succeeds(o.opens, 0) ==>
      var c := Conn(path, autoCommit, reconnects, autoConnect, InitialListeners(), Unset, false, autoCommit, false);
      var l := AttemptReconnect(c, o.(opens := Drop(o.opens, 1)), false);
      r == Step(l.conn.(handle := Null, connectShadowed := true), l.oracle, [OpenAttempt(path)] + l.trace, Ok(()))
  {
    var c := Conn(path, autoCommit, reconnects, autoConnect, InitialListeners(), Unset, false, autoCommit, false);
    if !autoConnect then Step(c, o, [], Ok(()))
    else
      var r := OpenOrReconnect(c, o);
      ReconnectMatchesClosedForm(c, o.(opens := Drop(o.opens, 1)), false);
      r.(conn := r.conn.(connectShadowed := true))
  }

  /** `connect()`: raises TypeError when the constructor shadowed it. */
  function Connect(c: Conn, o: Oracle): (r: Step<()>)
    ensures c.connectShadowed ==> r == Step(c, o, [], Raised(TypeError))
    ensures !c.connectShadowed ==> r.out == Ok(()) && |r.trace| >= 1 && r.trace[0] == OpenAttempt(c.path)
    ensures !c.connectShadowed && Succeeds(o.opens, 0) ==>
      r.conn.handle == Live && r.conn.cursor && r.trace == [OpenAttempt(c.path), Fire(ConnectEvent, [Text(c.path)])]
    ensures !c.connectShadowed && !Succeeds(o.opens, 0) ==>
      r.conn.handle == Null && Fired(r.trace, ConnectEvent) == 0
    ensures !c.connectShadowed && !Succeeds(o.opens, 0) ==>
      var l := AttemptReconnect(c, o.(opens := Drop(o.opens, 1)), false);
      r == Step(l.conn.(handle := Null), l.oracle, [OpenAttempt(c.path)] + l.trace, Ok(()))
  {
    if c.connectShadowed then Step(c, o, [], Raised(TypeError)) else OpenOrReconnect(c, o)
  }

  /** `_check_integrity`: True with nothing done when a handle is present;
      otherwise the reconnect loop with `error_on_fail`, then False. Reading
      an unassigned handle raises AttributeError. */
  function Integrity(c: Conn, o: Oracle): (r: Step<bool>)
    ensures c.handle == Live ==> r == Step(c, o, [], Ok(true))
    ensures c.handle == Unset ==> r == Step(c, o, [], Raised(AttributeError))
    ensures c.handle == Null ==>
      && r.trace == AttemptReconnect(c, o, true).trace
      && (r.out == Ok(false) || r.out == Raised(ConnectError))
      && (r.out.Raised? <==> c.reconnects > 0 && FirstSuccess(o.opens, c.reconnects).None?)
    ensures c.handle == Null ==>
      var l := AttemptReconnect(c, o, true);
      r == Step(l.conn, l.oracle, l.trace, if l.out.Raised? then Raised(ConnectError) else Ok(false))
    ensures c.handle == Null && r.out.Raised? ==> r.conn == c
  {
    match c.handle
    case Live => Step(c, o, [], Ok(true))
    case Unset => Step(c, o, [], Raised(AttributeError))
    case Null =>
      var l := AttemptReconnect(c, o, true);
      ReconnectBounds(c, o, true);
      Step(l.conn, l.oracle, l.trace, if l.out.Raised? then Raised(l.out.error) else Ok(false))
  }

  /** `close()`: dispatches `disconnect` first, then closes the handle and
      sets it to None; without a handle the close raises AttributeError. */
  function Close(c: Conn, o: Oracle): (r: Step<()>)
    ensures r.oracle == o && |r.trace| >= 1
    ensures r.trace[0] == Fire(DisconnectEvent, [Text(c.path)])
    ensures c.handle == Live <==> r.out.Ok?
    ensures c.handle == Live ==> r.conn == c.(handle := Null) && r.trace == [r.trace[0], CloseHandle]
    ensures c.handle != Live ==> r.conn == c && r.out == Raised(AttributeError) && |r.trace| == 1
  {
    var fired := [Fire(DisconnectEvent, [Text(c.path)])];
    if c.handle == Live then Step(c.(handle := Null), o, fired + [CloseHandle], Ok(()))
    else Step(c, o, fired, Raised(AttributeError))
  }

  /** `rollback()`: dispatches `rollback` and `transaction_success(path,
      "rollback")`, then rolls the handle back. */
  function Rollback(c: Conn, o: Oracle): (r: Step<()>)
    ensures r.conn == c && r.oracle == o && |r.trace| >= 2
    ensures r.trace[..2] == [Fire(RollbackEvent, [Text(c.path)]),
                             Fire(TransactionSuccessEvent, [Text(c.path), Text("rollback")])]
    ensures c.handle == Live ==> r.out.Ok? && r.trace[2..] == [RollbackHandle]
    ensures c.handle != Live ==> r.out == Raised(AttributeError) && |r.trace| == 2
  {
    var fired := [Fire(RollbackEvent, [Text(c.path)]), Fire(TransactionSuccessEvent, [Text(c.path), Text("rollback")])];
    if c.handle == Live then Step(c, o, fired + [RollbackHandle], Ok(()))
    else Step(c, o, fired, Raised(AttributeError))
  }

  /** `commit()`: shadowed by None under `auto_commit`, so calling it raises
      TypeError; otherwise dispatches `commit` and `transaction_success(path,
      "commit")`, then commits the handle. */
  function Commit(c: Conn, o: Oracle): (r: Step<()>)
    ensures r.conn == c && r.oracle == o
    ensures c.commitShadowed ==> r.trace == [] && r.out == Raised(TypeError)
    ensures !c.commitShadowed ==>
      && |r.trace| >= 2
      && r.trace[..2] == [Fire(CommitEvent, [Text(c.path)]),
                          Fire(TransactionSuccessEvent, [Text(c.path), Text("commit")])]
      && (c.handle == Live <==> r.out.Ok?)
      && (c.handle == Live ==> r.trace[2..] == [CommitHandle])
      && (c.handle != Live ==> r.out == Raised(AttributeError) && |r.trace| == 2)
  {
    if c.commitShadowed then Step(c, o, [], Raised(TypeError))
    else
      var fired := [Fire(CommitEvent, [Text(c.path)]), Fire(TransactionSuccessEvent, [Text(c.path), Text("commit")])];
      if c.handle == Live then Step(c, o, fired + [CommitHandle], Ok(()))
      else Step(c, o, fired, Raised(AttributeError))
  }

  // ---------------------------------------------------------------------------
  // Properties of the lifecycle
  // ---------------------------------------------------------------------------

  /** `connect()` whose first open fails leaves the handle None even when a
      reconnect attempt succeeded and dispatched `reconnect`. */
  lemma ConnectDropsReconnectedHandle(c: Conn, o: Oracle)
    requires !c.connectShadowed && c.reconnects > 0
    requires !Succeeds(o.opens, 0) && Succeeds(o.opens, 1)
    ensures var r := Connect(c, o);
      && r.out == Ok(())
      && r.conn.handle == Null && r.conn.cursor
      && r.trace == [OpenAttempt(c.path), OpenAttempt(c.path), Fire(ReconnectEvent, [Text(c.path), Number(1)])]
  {
    var o' := o.(opens := Drop(o.opens, 1));
    ReconnectMatchesClosedForm(c, o', false);
    assert FirstSuccess(o'.opens, c.reconnects) == Some(0);
  }

  /** `connect()` on a database that never opens makes `reconnects + 1`
      opens, dispatches `disconnect` once and `connect` never, returns
      normally and leaves the handle None. */
  lemma ConnectToUnreachableDatabase(c: Conn, o: Oracle)
    requires !c.connectShadowed && c.reconnects > 0
    requires forall k :: 0 <= k <= c.reconnects ==> !Succeeds(o.opens, k)
    ensures var r := Connect(c, o);
      && r.out == Ok(())
      && r.conn.handle == Null
      && Attempts(r.trace) == c.reconnects + 1
      && Fired(r.trace, DisconnectEvent) == 1
      && Fired(r.trace, ConnectEvent) == 0
  {
    var o' := o.(opens := Drop(o.opens, 1));
    assert !Succeeds(o.opens, 0);
    forall j | 0 <= j < c.reconnects
      ensures !Succeeds(o'.opens, j)
    {
      assert !Succeeds(o.opens, j + 1);
    }
    assert FirstSuccess(o'.opens, c.reconnects).None?;
    ReconnectExhausted(c, o', false);
    var l := AttemptReconnect(c, o', false);
    CountsOfAttemptThen(c.path, OpenAttempt(c.path), DisconnectEvent);
    CountsAdd([OpenAttempt(c.path)], l.trace, DisconnectEvent);
  }

  /** The integrity check makes no attempt when a handle exists, and when it
      returns normally with `reconnects > 0` a live handle is in place. */
  lemma IntegrityLeavesLiveHandle(c: Conn, o: Oracle)
    requires c.reconnects > 0
    ensures var r := Integrity(c, o);
      && (c.handle == Live ==> Attempts(r.trace) == 0)
      && (r.out.Ok? ==> r.conn.handle == Live)
      && (r.out == Ok(false) ==> r.conn.cursor)
      && (r.out == Ok(true) <==> c.handle == Live)
  {
    if c.handle == Null {
      if FirstSuccess(o.opens, c.reconnects).Some? {
        ReconnectStopsAtFirstSuccess(c, o, true);
      } else {
        ReconnectExhausted(c, o, true);
      }
    }
  }

  /** With `reconnects <= 0` a missing handle stays None and the check
      returns False without raising: the caller goes on without a handle. */
  lemma IntegrityWithoutReconnects(c: Conn, o: Oracle)
    requires c.reconnects <= 0 && c.handle == Null
    ensures Integrity(c, o) == Step(c, o, [], Ok(false))
  {
  }

  /** A well-formed connection: every event still has a slot, and a live
      handle always comes with a cursor. */
  predicate Valid(c: Conn) {
    HasEventSlots(c.listeners) && (c.handle == Live ==> c.cursor)
  }

  /** Every dispatch in a trace names one of the seven events, so none of
      them can raise KeyError on a well-formed connection. */
  predicate FiresKnownEvents(t: seq<Action>) {
    forall k :: 0 <= k < |t| && t[k].Fire? ==> t[k].event in EventNames
  }

  /** A trace that only opened, waited and dispatched known events: it
      executed, committed, rolled back and closed nothing. */
  predicate OnlyConnects(t: seq<Action>) {
    forall k :: 0 <= k < |t| ==> t[k].OpenAttempt? || t[k].Wait? || (t[k].Fire? && t[k].event in EventNames)
  }

  lemma ReconnectKeepsValid(c: Conn, o: Oracle, errorOnFail: bool)
    requires Valid(c)
    ensures Valid(AttemptReconnect(c, o, errorOnFail).conn)
    ensures FiresKnownEvents(AttemptReconnect(c, o, errorOnFail).trace)
  {
    ReconnectMatchesClosedForm(c, o, errorOnFail);
    ReconnectOnlyConnects(c, o, errorOnFail);
  }

  /** The reconnect loop, and so the integrity check, only opens, waits and
      dispatches. */
  lemma ReconnectOnlyConnects(c: Conn, o: Oracle, errorOnFail: bool)
    ensures OnlyConnects(AttemptReconnect(c, o, errorOnFail).trace)
  {
    ReconnectMatchesClosedForm(c, o, errorOnFail);
    var n := c.reconnects;
    if n > 0 {
      match FirstSuccess(o.opens, n)
      case Some(k) =>
        FailedAttemptsOnlyOpenAndWait(c.path, k, n);
      case None =>
        FailedAttemptsOnlyOpenAndWait(c.path, n - 1, n);
    }
  }

  lemma IntegrityOnlyConnects(c: Conn, o: Oracle)
    ensures OnlyConnects(Integrity(c, o).trace)
  {
    ReconnectOnlyConnects(c, o, true);
  }

  lemma {:induction false} FailedAttemptsOnlyOpenAndWait(path: string, k: nat, seconds: int)
    ensures forall j :: 0 <= j < |FailedAttempts(path, k, seconds)| ==>
              FailedAttempts(path, k, seconds)[j].OpenAttempt? || FailedAttempts(path, k, seconds)[j].Wait?
  {
    if k > 0 {
      var rest := FailedAttempts(path, k - 1, seconds);
      FailedAttemptsOnlyOpenAndWait(path, k - 1, seconds);
      assert forall j :: 2 <= j < 2 * k ==> FailedAttempts(path, k, seconds)[j] == rest[j - 2];
    }
  }

  lemma KnownEventsConcat(a: seq<Action>, b: seq<Action>)
    requires FiresKnownEvents(a) && FiresKnownEvents(b)
    ensures FiresKnownEvents(a + b)
  {
    forall k | 0 <= k < |a + b| && (a + b)[k].Fire?
      ensures (a + b)[k].event in EventNames
    {
      if k >= |a| {
        assert (a + b)[k] == b[k - |a|];
      }
    }
  }

  lemma OpenOrReconnectKeepsValid(c: Conn, o: Oracle)
    requires Valid(c)
    ensures Valid(OpenOrReconnect(c, o).conn) && FiresKnownEvents(OpenOrReconnect(c, o).trace)
  {
    if !Succeeds(o.opens, 0) {
      var o' := o.(opens := Drop(o.opens, 1));
      ReconnectKeepsValid(c, o', false);
      KnownEventsConcat([OpenAttempt(c.path)], AttemptReconnect(c, o', false).trace);
    }
  }

  /** Construction yields a well-formed connection that dispatched only the
      seven events. */
  lemma NewIsValid(path: string, autoCommit: bool, reconnects: int, autoConnect: bool, o: Oracle)
    ensures Valid(New(path, autoCommit, reconnects, autoConnect, o).conn)
    ensures FiresKnownEvents(New(path, autoCommit, reconnects, autoConnect, o).trace)
  {
    var c := Conn(path, autoCommit, reconnects, autoConnect, InitialListeners(), Unset, false, autoCommit, false);
    OpenOrReconnectKeepsValid(c, o);
  }

  /** Every lifecycle call keeps a connection well formed and dispatches only
      the seven events, so none of its dispatches can raise KeyError. */
  lemma LifecycleKeepsValid(c: Conn, o: Oracle)
    requires Valid(c)
    ensures Valid(Connect(c, o).conn) && FiresKnownEvents(Connect(c, o).trace)
    ensures Valid(Integrity(c, o).conn) && FiresKnownEvents(Integrity(c, o).trace)
    ensures Valid(Close(c, o).conn) && FiresKnownEvents(Close(c, o).trace)
    ensures Valid(Commit(c, o).conn) && FiresKnownEvents(Commit(c, o).trace)
    ensures Valid(Rollback(c, o).conn) && FiresKnownEvents(Rollback(c, o).trace)
  {
    OpenOrReconnectKeepsValid(c, o);
    ReconnectKeepsValid(c, o, true);
  }
}

=== FILE: registry.dfy ===
/**
 The listener registry of a connection: a map from event names to at most one
 callback each, the `listen` decorator that fills it, and the best-effort
 dispatch that calls a registered callback.
 */
module Registry {
  import opened Values

  /** A user function handed to `listen`: its `__name__` and an identity. */
  datatype Callback = Callback(name: string, id: nat)

  /** What calling a callback with some positional arguments does: it returns
      a value (`None` included), raises TypeError (for instance because it
      does not accept those arguments), or raises NameError. */
  datatype CallOutcome = Returned(v: Option<Value>) | RaisedTypeError | RaisedNameError

  /** Event name to registered callback; a `None` slot has no callback. */
  type Listeners = map<string, Option<Callback>>

  const ReconnectEvent := "reconnect"
  const ConnectEvent := "connect"
  const DisconnectEvent := "disconnect"
  const ErrorEvent := "error"
  const TransactionSuccessEvent := "transaction_success"
  const RollbackEvent := "rollback"
  const CommitEvent := "commit"

  /** The seven events the constructor creates a slot for. */
  const EventNames: set<string> :=
    {ReconnectEvent, ConnectEvent, DisconnectEvent, ErrorEvent,
     TransactionSuccessEvent, RollbackEvent, CommitEvent}

  /** The registry a new connection starts with. */
  function InitialListeners(): (r: Listeners)
    ensures r.Keys == EventNames
    ensures |r| == 7
    ensures forall e :: e in r ==> r[e] == None
  {
    map e | e in EventNames :: None
  }

  /** The slot a function is registered under: its name without the first
      three characters (`on_connect` goes to `connect`); Python's slice gives
      the empty string for a name shorter than three characters. */
  function EventKey(name: string): (k: string)
    ensures |name| >= 3 ==> name[..3] + k == name
    ensures |name| < 3 ==> k == ""
    ensures |k| == if |name| >= 3 then |name| - 3 else 0
  {
    if |name| >= 3 then name[3..] else ""
  }

  /** `listen`: stores the function under its slot, replacing what was there.
      Any slot name is accepted, known or not, and nothing is raised. */
  function Listen(reg: Listeners, f: Callback): (r: Listeners)
    ensures r.Keys == reg.Keys + {EventKey(f.name)}
    ensures r[EventKey(f.name)] == Some(f)
    ensures forall e :: e in reg && e != EventKey(f.name) ==> r[e] == reg[e]
  {
    reg[EventKey(f.name) := Some(f)]
  }

  /** `_dispatch_listener`: calls the callback in the event's slot with the
      arguments. An empty slot (calling `None`) and a call that raises
      TypeError or NameError all yield False; an event without a slot raises
      KeyError. */
  function Dispatch(reg: Listeners, event: string, args: seq<Value>,
                    invoke: (Callback, seq<Value>) -> CallOutcome): (r: Outcome<Option<Value>>)
    ensures r == Raised(KeyError) <==> event !in reg
    ensures event in reg && reg[event].Some? && invoke(reg[event].value, args).Returned? ==>
              r == Ok(invoke(reg[event].value, args).v)
    ensures event in reg && (reg[event].None? || !invoke(reg[event].value, args).Returned?) ==>
              r == Ok(Some(Flag(false)))
  {
    if event !in reg then Raised(KeyError)
    else match reg[event]
      case None => Ok(Some(Flag(false)))
      case Some(cb) =>
        match invoke(cb, args)
        case Returned(v) => Ok(v)
        case RaisedTypeError => Ok(Some(Flag(false)))
        case RaisedNameError => Ok(Some(Flag(false)))
  }

  /** A registry that still has a slot for each of the seven events. */
  predicate HasEventSlots(reg: Listeners) {
    EventNames <= reg.Keys
  }

  /** Registration only ever adds slots, so the seven event slots survive it. */
  lemma ListenKeepsEventSlots(reg: Listeners, f: Callback)
    requires HasEventSlots(reg)
    ensures HasEventSlots(Listen(reg, f))
  {
  }

  /** On a fresh registry every event dispatches to nothing and yields False. */
  lemma InitialDispatchIsFalse(event: string, args: seq<Value>,
                               invoke: (Callback, seq<Value>) -> CallOutcome)
    requires event in EventNames
    ensures Dispatch(InitialListeners(), event, args, invoke) == Ok(Some(Flag(false)))
  {
  }

  /** Dispatching one of the seven events on a registry that has their slots
      never raises, whatever the registered callbacks return, and when they
      raise TypeError or NameError. */
  lemma DispatchKnownEventNeverRaises(reg: Listeners, event: string, args: seq<Value>,
                                      invoke: (Callback, seq<Value>) -> CallOutcome)
    requires HasEventSlots(reg) && event in EventNames
    ensures Dispatch(reg, event, args, invoke).Ok?
  {
  }

  /** After `listen(f)` the next dispatch of f's event calls f: its result
      when it returns, False when it raises TypeError or NameError. */
  lemma ListenThenDispatch(reg: Listeners, f: Callback, args: seq<Value>,
                           invoke: (Callback, seq<Value>) -> CallOutcome)
    ensures Dispatch(Listen(reg, f), EventKey(f.name), args, invoke) ==
              match invoke(f, args)
              case Returned(v) => Ok(v)
              case RaisedTypeError => Ok(Some(Flag(false)))
              case RaisedNameError => Ok(Some(Flag(false)))
  {
  }

  /** Of two registrations under the same slot the later one is called, and
      registering under another slot leaves a dispatch unchanged. */
  lemma LastRegistrationWins(reg: Listeners, f: Callback, g: Callback, event: string, args: seq<Value>,
                             invoke: (Callback, seq<Value>) -> CallOutcome)
    ensures EventKey(f.name) == EventKey(g.name) ==>
              Listen(Listen(reg, f), g) == Listen(reg, g)
    ensures event != EventKey(g.name) ==>
              Dispatch(Listen(reg, g), event, args, invoke) == Dispatch(reg, event, args, invoke)
  {
  }
}

=== FILE: statements.dfy ===
/**
 The SQL text and bound parameters that the six table operations hand to the
 engine, built from their arguments before anything is executed. Identifiers
 and inserted values are interpolated into the text as they are; only filter
 values and update values are bound to `?` placeholders.
 */
module Statements {
  import opened Values

  /** A statement as passed to `cursor.execute`: the text and the tuple of
      bound parameters (empty when `execute` is called with the text alone). */
  datatype Statement = Statement(text: string, params: seq<Value>)

  /** Python's `sep.join(parts)`: no separator around a single part, and
      the empty string for no parts. */
  function Join(sep: string, parts: seq<string>): (r: string)
    ensures |parts| == 0 ==> r == ""
    ensures |parts| == 1 ==> r == parts[0]
    ensures |parts| >= 1 ==> |r| >= |parts[0]| && r[..|parts[0]|] == parts[0]
  {
    if |parts| == 0 then ""
    else if |parts| == 1 then parts[0]
    else parts[0] + sep + Join(sep, parts[1..])
  }

  /** One more part is appended after one more separator, so the parts appear
      in order, separated exactly once between neighbours. */
  lemma {:induction false} JoinSnoc(sep: string, parts: seq<string>, p: string)
    requires |parts| >= 1
    ensures Join(sep, parts + [p]) == Join(sep, parts) + sep + p
    decreases |parts|
  {
    if |parts| == 1 {
      assert (parts + [p])[1..] == [p];
    } else {
      assert (parts + [p])[1..] == parts[1..] + [p];
      JoinSnoc(sep, parts[1..], p);
    }
  }

  /** Python's `reversed`. */
  function Reverse<T>(s: seq<T>): (r: seq<T>)
    ensures |r| == |s|
    ensures forall i :: 0 <= i < |s| ==> r[i] == s[|s| - 1 - i]
  {
    seq(|s|, i requires 0 <= i < |s| => s[|s| - 1 - i])
  }

  /** `f` applied to every element, in order. */
  function Applied<T>(s: seq<T>, f: T -> T): (r: seq<T>)
    ensures |r| == |s|
    ensures forall i :: 0 <= i < |s| ==> r[i] == f(s[i])
  {
    seq(|s|, i requires 0 <= i < |s| => f(s[i]))
  }

  // ---------------------------------------------------------------------------
  // The list rewrite of CREATE TABLE, for any element type and any rewriting
  // ---------------------------------------------------------------------------

  /** The position of the first occurrence of `x` in `l`, or `|l|`. */
  function IndexOf<T(==)>(l: seq<T>, x: T): (i: nat)
    ensures i <= |l|
    ensures i < |l| ==> l[i] == x
    ensures forall j :: 0 <= j < i ==> l[j] != x
  {
    if |l| == 0 then 0
    else if l[0] == x then 0
    else 1 + IndexOf(l[1..], x)
  }

  /** Python's `l.remove(x)`: drops the first occurrence of `x`. */
  function RemoveFirst<T(==)>(l: seq<T>, x: T): (r: seq<T>)
    requires x in l
    ensures |r| == |l| - 1
    ensures r == l[..IndexOf(l, x)] + l[IndexOf(l, x) + 1..]
    ensures multiset(r) + multiset{x} == multiset(l)
  {
    var i := IndexOf(l, x);
    assert l == l[..i] + [x] + l[i + 1..];
    l[..i] + l[i + 1..]
  }

  /** One iteration of the `for x in values` loop of `create_table` at
      position `k`: the list iterator reads position `k` of the list as it is
      now; the body removes the first element equal to that value and inserts
      its rewriting `def(x)` at the front. */
  function Next<T(==)>(l: seq<T>, k: nat, def: T -> T): (r: seq<T>)
    requires k < |l|
    ensures |r| == |l| && r[0] == def(l[k])
    ensures multiset(r) + multiset{l[k]} == multiset(l) + multiset{def(l[k])}
  {
    [def(l[k])] + RemoveFirst(l, l[k])
  }

  /** The loop from iteration `k` on; the list keeps its length, so the
      iterator runs for exactly `|l|` iterations. */
  function RewriteFrom<T(==)>(l: seq<T>, k: nat, def: T -> T): (r: seq<T>)
    requires k <= |l|
    ensures |r| == |l|
    decreases |l| - k
  {
    if k == |l| then l else RewriteFrom(Next(l, k, def), k + 1, def)
  }

  /** No element equals the rewriting of an earlier one: the one case in
      which the loop removes an already rewritten entry. */
  predicate NoCollisionUnder<T(==)>(names: seq<T>, def: T -> T) {
    forall j, k :: 0 <= j < k < |names| ==> names[k] != def(names[j])
  }

  /** One loop iteration leaves every position after the one it read alone. */
  lemma NextKeepsUnread<T>(l: seq<T>, k: nat, def: T -> T)
    requires k < |l|
    ensures Next(l, k, def)[k + 1..] == l[k + 1..]
  {
    var x := l[k];
    var i := IndexOf(l, x);
    assert i <= k;
    var r := RemoveFirst(l, x);
    var l' := Next(l, k, def);
    forall j | k + 1 <= j < |l|
      ensures l'[j] == l[j]
    {
      assert l'[j] == r[j - 1];
    }
  }

  lemma MultisetOfCons<T>(s: seq<T>)
    requires |s| > 0
    ensures multiset(s) == multiset{s[0]} + multiset(s[1..])
  {
    assert s == [s[0]] + s[1..];
  }

  lemma AppliedOfCons<T>(s: seq<T>, def: T -> T)
    requires |s| > 0
    ensures Applied(s, def) == [def(s[0])] + Applied(s[1..], def)
  {
  }

  /** From iteration `k` on, the loop trades the unread values `l[k..]` for
      their rewritings: contents are kept, whatever the values are. */
  lemma {:induction false} RewriteFromPermutes<T>(l: seq<T>, k: nat, def: T -> T)
    requires k <= |l|
    ensures multiset(RewriteFrom(l, k, def)) + multiset(l[k..]) ==
              multiset(l) + multiset(Applied(l[k..], def))
    decreases |l| - k
  {
    if k < |l| {
      var l' := Next(l, k, def);
      NextKeepsUnread(l, k, def);
      MultisetOfCons(l[k..]);
      assert l[k..][1..] == l[k + 1..];
      AppliedOfCons(l[k..], def);
      MultisetOfCons(Applied(l[k..], def));
      RewriteFromPermutes(l', k + 1, def);
      TradeOne(multiset(RewriteFrom(l', k + 1, def)), multiset(l[k + 1..]), multiset(l'),
               multiset(Applied(l[k + 1..], def)), multiset(l), l[k], def(l[k]));
    }
  }

  /** The multiset bookkeeping of one iteration: trading `x` for `y`. */
  lemma TradeOne<T>(r: multiset<T>, rest: multiset<T>, l': multiset<T>, pRest: multiset<T>,
                    l: multiset<T>, x: T, y: T)
    requires r + rest == l' + pRest
    requires l' + multiset{x} == l + multiset{y}
    ensures r + (multiset{x} + rest) == l + (multiset{y} + pRest)
  {
    calc {
      r + (multiset{x} + rest);
      (r + rest) + multiset{x};
      (l' + multiset{x}) + pRest;
      l + (multiset{y} + pRest);
    }
  }

  lemma MultisetCancel<T>(a: multiset<T>, c: multiset<T>, b: multiset<T>)
    requires a + c == c + b
    ensures a == b
  {
    forall x
      ensures a[x] == b[x]
    {
      assert (a + c)[x] == (c + b)[x];
    }
  }

  /** The list as iteration `k` finds it when nothing collides: the reversed
      rewritings of `values[..k]` followed by the unread `values[k..]`. */
  function Before<T>(values: seq<T>, k: nat, def: T -> T): (r: seq<T>)
    requires k <= |values|
    ensures |r| == |values|
  {
    Reverse(Applied(values[..k], def)) + values[k..]
  }

  /** Without a collision the value read at `k` first occurs at `k`. */
  lemma FirstOccurrenceIsRead<T>(values: seq<T>, k: nat, def: T -> T)
    requires k < |values|
    requires NoCollisionUnder(values, def)
    ensures IndexOf(Before(values, k, def), values[k]) == k
  {
    var l := Before(values, k, def);
    assert l[k] == values[k];
    forall j | 0 <= j < k
      ensures l[j] != values[k]
    {
      assert l[j] == def(values[k - 1 - j]);
    }
  }

  /** Without a collision one iteration moves the boundary one step on. */
  lemma NextOfBefore<T>(values: seq<T>, k: nat, def: T -> T)
    requires k < |values|
    requires NoCollisionUnder(values, def)
    ensures Next(Before(values, k, def), k, def) == Before(values, k + 1, def)
  {
    var l := Before(values, k, def);
    FirstOccurrenceIsRead(values, k, def);
    var r := RemoveFirst(l, values[k]);
    assert r == Reverse(Applied(values[..k], def)) + values[k + 1..];
    var l' := Next(l, k, def);
    var b := Before(values, k + 1, def);
    forall j | 0 <= j < |values|
      ensures l'[j] == b[j]
    {
      if j == 0 {
        assert b[0] == Applied(values[..k + 1], def)[k];
      } else if j <= k {
        assert b[j] == Applied(values[..k + 1], def)[k - j];
        assert l'[j] == r[j - 1];
      } else {
        assert l'[j] == r[j - 1];
      }
    }
  }

  /** With no collision, the loop from iteration `k` on ends with the
      rewritings of all values in reverse order. */
  lemma {:induction false} RewriteFromInOrder<T>(values: seq<T>, k: nat, def: T -> T)
    requires k <= |values|
    requires NoCollisionUnder(values, def)
    ensures RewriteFrom(Before(values, k, def), k, def) == Reverse(Applied(values, def))
    decreases |values| - k
  {
    if k == |values| {
      assert values[..k] == values;
    } else {
      NextOfBefore(values, k, def);
      RewriteFromInOrder(values, k + 1, def);
    }
  }

  // ---------------------------------------------------------------------------
  // CREATE TABLE
  // ---------------------------------------------------------------------------

  /** The column definition `f"{x} {t}"`. */
  function ColumnDef(name: string, t: string): string {
    name + " " + t
  }

  /** The rewriting of one name in `create_table`: it is always paired with
      `types[i]` for an `i` that stays 0, here `t`. */
  function Definer(t: string): string -> string {
    x => ColumnDef(x, t)
  }

  /** Every name paired with the same type token, in input order. */
  function Paired(names: seq<string>, t: string): seq<string> {
    Applied(names, Definer(t))
  }

  /** The list `values` holds after the loop of `create_table`, whose first
      type token is `t`: exactly one definition per input name, every one of
      them with that type token, whatever the names are. */
  function ColumnRewrite(values: seq<string>, t: string): (r: seq<string>)
    ensures |r| == |values|
    ensures multiset(r) == multiset(Paired(values, t))
  {
    RewriteFromPermutes(values, 0, Definer(t));
    assert values[0..] == values;
    var r := RewriteFrom(values, 0, Definer(t));
    MultisetCancel(multiset(r), multiset(values), multiset(Paired(values, t)));
    r
  }

  /** No name equals the definition of an earlier name, `"<earlier> <t>"`. */
  predicate NoCollision(names: seq<string>, t: string) {
    NoCollisionUnder(names, Definer(t))
  }

  /** With no collision, the list after the loop is the definitions in
      reverse input order, so `reversed` restores the input order. */
  lemma ColumnRewriteInOrder(values: seq<string>, t: string)
    requires NoCollision(values, t)
    ensures ColumnRewrite(values, t) == Reverse(Paired(values, t))
    ensures Reverse(ColumnRewrite(values, t)) == Paired(values, t)
  {
    RewriteFromInOrder(values, 0, Definer(t));
    assert Before(values, 0, Definer(t)) == values;
  }

  /** A value equal to the rewriting of an earlier one breaks the order:
      `[b, a, def(a)]` comes out as `def(a), def(b), def(def(a))`. */
  lemma OrderCanChange<T>(a: T, b: T, def: T -> T)
    requires def(b) != a && def(a) != def(b)
    ensures Reverse(RewriteFrom([b, a, def(a)], 0, def)) == [def(a), def(b), def(def(a))]
    ensures Reverse(RewriteFrom([b, a, def(a)], 0, def)) != Applied([b, a, def(a)], def)
  {
    CollidingRun(a, b, def);
    ReverseOfThree(def(def(a)), def(b), def(a));
    assert Applied([b, a, def(a)], def)[0] == def(b);
  }

  lemma ReverseOfThree<T>(x: T, y: T, z: T)
    ensures Reverse([x, y, z]) == [z, y, x]
  {
    var r := Reverse([x, y, z]);
    assert r[0] == z && r[1] == y && r[2] == x;
  }

  /** The three iterations on `[b, a, def(a)]`: the third reads `def(a)`
      and removes the rewritten entry at the front instead of itself. */
  lemma CollidingRun<T>(a: T, b: T, def: T -> T)
    requires def(b) != a
    ensures RewriteFrom([b, a, def(a)], 0, def) == [def(def(a)), def(b), def(a)]
  {
    CollidingFirst(a, b, def);
    CollidingSecond(a, b, def);
    CollidingThird(a, b, def);
  }

  lemma CollidingFirst<T>(a: T, b: T, def: T -> T)
    ensures RewriteFrom([b, a, def(a)], 0, def) == RewriteFrom([def(b), a, def(a)], 1, def)
  {
    NextStepIs([b, a, def(a)], 0, def, 0, [def(b), a, def(a)]);
  }

  lemma CollidingSecond<T>(a: T, b: T, def: T -> T)
    requires def(b) != a
    ensures RewriteFrom([def(b), a, def(a)], 1, def) == RewriteFrom([def(a), def(b), def(a)], 2, def)
  {
    NextStepIs([def(b), a, def(a)], 1, def, 1, [def(a), def(b), def(a)]);
  }

  lemma CollidingThird<T>(a: T, b: T, def: T -> T)
    ensures RewriteFrom([def(a), def(b), def(a)], 2, def) == [def(def(a)), def(b), def(a)]
  {
    NextStepIs([def(a), def(b), def(a)], 2, def, 0, [def(def(a)), def(b), def(a)]);
    assert RewriteFrom([def(def(a)), def(b), def(a)], 3, def) == [def(def(a)), def(b), def(a)];
  }

  /** One iteration computed from the position of the first occurrence. */
  lemma NextStepIs<T>(l: seq<T>, k: nat, def: T -> T, i: nat, l': seq<T>)
    requires k < |l| && i <= k
    requires l[i] == l[k] && forall j :: 0 <= j < i ==> l[j] != l[k]
    requires |l'| == |l| && l'[0] == def(l[k])
    requires forall j :: 1 <= j <= i ==> l'[j] == l[j - 1]
    requires forall j :: i < j < |l| ==> l'[j] == l[j]
    ensures Next(l, k, def) == l'
    ensures RewriteFrom(l, k, def) == RewriteFrom(l', k + 1, def)
  {
    assert IndexOf(l, l[k]) == i;
    var n := Next(l, k, def);
    forall j | 0 <= j < |l|
      ensures n[j] == l'[j]
    {
      if j > 0 {
        assert n[j] == RemoveFirst(l, l[k])[j - 1];
      }
    }
  }

  /** A collision does not always break the order: on `[a, def(a)]` the
      second iteration removes the rewritten entry instead of itself, and
      the result still comes out in input order. */
  lemma CollisionCanKeepOrder<T>(a: T, def: T -> T)
    ensures !NoCollisionUnder([a, def(a)], def)
    ensures Reverse(RewriteFrom([a, def(a)], 0, def)) == Applied([a, def(a)], def)
  {
    var l := [a, def(a)];
    assert l[1] == def(l[0]);
    KeptFirst(a, def);
    KeptSecond(a, def);
    ReverseOfPair(def(def(a)), def(a));
    AppliedOfPair(a, def(a), def);
  }

  lemma ReverseOfPair<T>(x: T, y: T)
    ensures Reverse([x, y]) == [y, x]
  {
    var r := Reverse([x, y]);
    assert r[0] == y && r[1] == x;
  }

  lemma AppliedOfPair<T>(x: T, y: T, def: T -> T)
    ensures Applied([x, y], def) == [def(x), def(y)]
  {
    var r := Applied([x, y], def);
    assert r[0] == def(x) && r[1] == def(y);
  }

  lemma KeptFirst<T>(a: T, def: T -> T)
    ensures RewriteFrom([a, def(a)], 0, def) == RewriteFrom([def(a), def(a)], 1, def)
  {
    NextStepIs([a, def(a)], 0, def, 0, [def(a), def(a)]);
  }

  lemma KeptSecond<T>(a: T, def: T -> T)
    ensures RewriteFrom([def(a), def(a)], 1, def) == [def(def(a)), def(a)]
  {
    NextStepIs([def(a), def(a)], 1, def, 0, [def(def(a)), def(a)]);
    assert RewriteFrom([def(def(a)), def(a)], 2, def) == [def(def(a)), def(a)];
  }

  /** The same for column names: `["a", "a X"]` with first type `X` collides
      and is still emitted in input order, `a X, a X X`. */
  lemma ColumnCollisionCanKeepOrder()
    ensures !NoCollision(["a", "a X"], "X")
    ensures Reverse(ColumnRewrite(["a", "a X"], "X")) == Paired(["a", "a X"], "X") == ["a X", "a X X"]
  {
    var d := Definer("X");
    assert d("a") == "a X" && d("a X") == "a X X";
    CollisionCanKeepOrder("a", d);
    assert Paired(["a", "a X"], "X")[0] == "a X";
    assert Paired(["a", "a X"], "X")[1] == "a X X";
  }

  /** The same for column names: `["b", "a", "a X"]` with first type `X`
      is emitted as `a X, b X, a X X` instead of `b X, a X, a X X`. */
  lemma ColumnOrderCanChange()
    ensures Reverse(ColumnRewrite(["b", "a", "a X"], "X")) == ["a X", "b X", "a X X"]
    ensures Reverse(ColumnRewrite(["b", "a", "a X"], "X")) != Paired(["b", "a", "a X"], "X")
  {
    var d := Definer("X");
    assert d("a") == "a X" && d("b") == "b X" && d("a X") == "a X X";
    assert |d("b")| != |"a"|;
    assert d("a")[0] != d("b")[0];
    OrderCanChange("a", "b", d);
  }

  const CreatePrefix := "CREATE TABLE IF NOT EXISTS "

  /** The text `create_table` executes, from the list after the loop. */
  function CreateTableText(name: string, columns: seq<string>): (r: string)
    ensures |r| >= |CreatePrefix + name + " ("| + 1
    ensures r[..|CreatePrefix + name + " ("|] == CreatePrefix + name + " ("
    ensures r[|r| - 1] == ')'
    ensures |columns| == 1 ==> r == CreatePrefix + name + " (" + columns[0] + ")"
  {
    CreatePrefix + name + " (" + Join(", ", Reverse(columns)) + ")"
  }

  /** The type token the loop pairs with every column: `types[0]`, which is
      never read when there are no columns. */
  function FirstType(types: seq<string>): string {
    if |types| > 0 then types[0] else ""
  }

  /** The validation and statement of `create_table`. */
  function CreateTablePlan(name: string, values: seq<string>, types: seq<string>): (r: Outcome<Statement>)
    ensures r.Raised? <==> |values| != |types|
    ensures r.Raised? ==> r.error == OptionError
    ensures r.Ok? ==> r.value.params == []
  {
    if |values| != |types| then Raised(OptionError)
    else Ok(Statement(CreateTableText(name, ColumnRewrite(values, FirstType(types))), []))
  }

  /** `create_table` with matching lengths emits one definition per name,
      each with the first type token; in input order when no name collides. */
  lemma CreateTablePairsFirstType(name: string, values: seq<string>, types: seq<string>)
    requires |values| == |types|
    ensures var cols := ColumnRewrite(values, FirstType(types));
      && CreateTablePlan(name, values, types) == Ok(Statement(CreateTableText(name, cols), []))
      && multiset(cols) == multiset(Paired(values, FirstType(types)))
    ensures NoCollision(values, FirstType(types)) ==>
      CreateTablePlan(name, values, types) ==
        Ok(Statement(CreatePrefix + name + " (" + Join(", ", Paired(values, FirstType(types))) + ")", []))
  {
    if NoCollision(values, FirstType(types)) {
      ColumnRewriteInOrder(values, FirstType(types));
    }
  }

  // ---------------------------------------------------------------------------
  // DROP TABLE, INSERT, DELETE, UPDATE
  // ---------------------------------------------------------------------------

  /** `DROP TABLE <name>`: the name is spliced in as it is, and nothing is
      bound. */
  function DropTableStatement(name: string): (r: Statement)
    ensures r.params == []
    ensures |r.text| == |"DROP TABLE "| + |name|
    ensures r.text[..|"DROP TABLE "|] == "DROP TABLE " && r.text[|"DROP TABLE "|..] == name
  {
    Statement("DROP TABLE " + name, [])
  }

  /** Each inserted value rendered between single quotes, `f"'{x}'"`. */
  function Quoted(values: seq<Value>): (r: seq<string>)
    ensures |r| == |values|
    ensures forall i :: 0 <= i < |values| ==> r[i] == "'" + Render(values[i]) + "'"
  {
    seq(|values|, i requires 0 <= i < |values| => "'" + Render(values[i]) + "'")
  }

  /** The statement of `insert`: values are spliced into the text, nothing is bound. */
  function InsertStatement(table: string, values: seq<Value>): (r: Statement)
    ensures r.params == []
    ensures r.text == "INSERT INTO " + table + " VALUES (" + Join(", ", Quoted(values)) + ")"
  {
    Statement("INSERT INTO " + table + " VALUES (" + Join(", ", Quoted(values)) + ")", [])
  }

  /** The INSERT text lists the values in order, each quoted once: no values
      give `()` and one value gives `('v')`. */
  lemma InsertFewValues(table: string, v: Value)
    ensures InsertStatement(table, []).text == "INSERT INTO " + table + " VALUES ()"
    ensures InsertStatement(table, [v]).text == "INSERT INTO " + table + " VALUES ('" + Render(v) + "')"
  {
    var q := "'" + Render(v) + "'";
    assert Quoted([]) == [];
    assert Quoted([v]) == [q];
    assert Join(", ", [q]) == q;
  }

  /** One more value adds `, 'v'` before the closing parenthesis. */
  lemma InsertOneMoreValue(table: string, values: seq<Value>, v: Value)
    requires |values| >= 1
    ensures InsertStatement(table, values + [v]).text ==
              "INSERT INTO " + table + " VALUES (" + Join(", ", Quoted(values)) + ", '" + Render(v) + "')"
  {
    var q := "'" + Render(v) + "'";
    var qs := Quoted(values);
    QuotedSnoc(values, v);
    JoinSnoc(", ", qs, q);
    assert Join(", ", Quoted(values + [v])) == Join(", ", qs) + ", " + q;
    QuoteAfterSeparator("INSERT INTO " + table + " VALUES (", Join(", ", qs), Render(v));
  }

  lemma QuotedSnoc(values: seq<Value>, v: Value)
    ensures Quoted(values + [v]) == Quoted(values) + ["'" + Render(v) + "'"]
  {
  }

  lemma QuoteAfterSeparator(head: string, j: string, x: string)
    ensures head + (j + ", " + ("'" + x + "'")) + ")" == head + j + ", '" + x + "')"
  {
  }

  /** The validation and statement of `delete`. A value without a column is
      rejected up front; a column without a value reaches the execute with
      its WHERE text unassigned, and that error too comes out as OptionError. */
  function DeletePlan(table: string, column: Option<string>, value: Option<Value>): (r: Outcome<Statement>)
    ensures r.Raised? <==> (column.None? != value.None?)
    ensures r.Raised? ==> r.error == OptionError
    ensures column.None? && value.None? ==> r == Ok(Statement("DELETE FROM " + table, []))
    ensures column.Some? && value.Some? ==>
              r.Ok? && r.value.params == [value.value] &&
              r.value.text == "DELETE FROM " + table + " WHERE " + column.value + "=?"
  {
    if column.None? && value.Some? then Raised(OptionError)
    else if column.None? && value.None? then Ok(Statement("DELETE FROM " + table, []))
    else if value.Some? then Ok(Statement("DELETE FROM " + table + " WHERE " + column.value + "=?", [value.value]))
    else Raised(OptionError)
  }

  /** The statement of `update`: the new value is always the first bound
      parameter; the filter is used only when both of its arguments are given. */
  function UpdateStatement(table: string, column: string, value: Value,
                           filterColumn: Option<string>, filterValue: Option<Value>): (r: Statement)
    ensures 1 <= |r.params| <= 2 && r.params[0] == value
    ensures |r.params| == 2 <==> filterColumn.Some? && filterValue.Some?
    ensures |r.params| == 2 ==> r.params[1] == filterValue.value
    ensures filterColumn.Some? && filterValue.Some? ==>
      r.text == "UPDATE " + table + " SET " + column + "=? WHERE " + filterColumn.value + "=?"
    ensures !(filterColumn.Some? && filterValue.Some?) ==>
      r.text == "UPDATE " + table + " SET " + column + "=?"
  {
    var setText := "UPDATE " + table + " SET " + column + "=?";
    if filterColumn.Some? && filterValue.Some? then
      Statement(setText + " WHERE " + filterColumn.value + "=?", [value, filterValue.value])
    else
      Statement(setText, [value])
  }

  /** `update` given only one of the two filter arguments updates every row,
      exactly as if it had been given neither. */
  lemma UpdateOneFilterIsUnfiltered(table: string, column: string, value: Value,
                                    filterColumn: Option<string>, filterValue: Option<Value>)
    requires filterColumn.Some? != filterValue.Some?
    ensures UpdateStatement(table, column, value, filterColumn, filterValue) ==
              UpdateStatement(table, column, value, None, None)
    ensures UpdateStatement(table, column, value, filterColumn, filterValue).params == [value]
  {
  }

  // ---------------------------------------------------------------------------
  // SELECT
  // ---------------------------------------------------------------------------

  /** The `select` argument: one column name, or a tuple or list of them. */
  datatype Selection = Single(column: string) | Several(columns: seq<string>)

  /** A single column is wrapped into a one-element tuple. */
  function Columns(sel: Selection): (r: seq<string>)
    ensures sel.Single? ==> r == [sel.column]
    ensures sel.Several? ==> r == sel.columns
  {
    match sel
    case Single(c) => [c]
    case Several(cs) => cs
  }

  /** The random-ordering clause: present exactly when `random` is truthy. */
  function RandomClause(random: bool): (r: string)
    ensures random <==> r != ""
    ensures random ==> r == " ORDER BY RANDOM()"
  {
    if random then " ORDER BY RANDOM()" else ""
  }

  /** The limit clause: `" LIMIT "` and the number's `str()` when a limit
      is given, nothing otherwise. */
  function LimitClause(limit: Option<int>): (r: string)
    ensures limit.None? <==> r == ""
    ensures limit.Some? ==> |r| > 7 && r[..7] == " LIMIT " && r[7..] == Decimal(limit.value)
  {
    match limit
    case None => ""
    case Some(n) => " LIMIT " + Decimal(n)
  }

  /** The text of `select` before its two optional clauses: with a filter
      it ends in `WHERE c=? ` (the space before the clauses is kept even when
      both are empty); without one it ends with the table name. */
  function SelectHead(table: string, sel: Selection, filterColumn: Option<string>): (r: string)
    ensures filterColumn.None? ==> r == "SELECT " + Join(", ", Columns(sel)) + " FROM " + table
    ensures filterColumn.Some? ==>
      r == "SELECT " + Join(", ", Columns(sel)) + " FROM " + table + " WHERE " + filterColumn.value + "=? "
  {
    var head := "SELECT " + Join(", ", Columns(sel)) + " FROM " + table;
    if filterColumn.Some? then head + " WHERE " + filterColumn.value + "=? " else head
  }

  /** The statement of `select`, or None when exactly one of the two filter
      arguments is given: then neither branch runs and nothing is executed. */
  function SelectPlan(table: string, sel: Selection, filterColumn: Option<string>, filterValue: Option<Value>,
                      limit: Option<int>, random: bool): (r: Option<Statement>)
    ensures r.None? <==> filterColumn.Some? != filterValue.Some?
    ensures r.Some? && filterColumn.Some? ==> r.value.params == [filterValue.value]
    ensures r.Some? && filterColumn.None? ==> r.value.params == []
    ensures filterColumn.Some? && filterValue.Some? ==>
      r == Some(Statement("SELECT " + Join(", ", Columns(sel)) + " FROM " + table
                          + " WHERE " + filterColumn.value + "=? " + RandomClause(random) + LimitClause(limit),
                          [filterValue.value]))
    ensures filterColumn.None? && filterValue.None? ==>
      r == Some(Statement("SELECT " + Join(", ", Columns(sel)) + " FROM " + table
                          + RandomClause(random) + LimitClause(limit), []))
  {
    var text := SelectHead(table, sel, filterColumn) + RandomClause(random) + LimitClause(limit);
    if filterColumn.Some? && filterValue.Some? then Some(Statement(text, [filterValue.value]))
    else if filterColumn.None? && filterValue.None? then Some(Statement(text, []))
    else None
  }

  /** " ORDER BY RANDOM()" is appended exactly when `random`, and " LIMIT n"
      exactly when a limit is given, to a text that depends on neither. */
  lemma SelectClauses(table: string, sel: Selection, filterColumn: Option<string>, filterValue: Option<Value>,
                      limit: Option<int>, random: bool)
    requires filterColumn.Some? == filterValue.Some?
    ensures var base := SelectPlan(table, sel, filterColumn, filterValue, None, false).value;
      SelectPlan(table, sel, filterColumn, filterValue, limit, random) ==
        Some(Statement(base.text + RandomClause(random) + LimitClause(limit), base.params))
  {
    var head := SelectHead(table, sel, filterColumn);
    assert head + RandomClause(false) + LimitClause(None) == head;
  }

  /** The clause that ends the text: the limit when one is given, otherwise
      the random ordering when asked for. */
  lemma SelectEndsWithClauses(table: string, sel: Selection, filterColumn: Option<string>, filterValue: Option<Value>,
                              limit: Option<int>, random: bool)
    requires filterColumn.Some? == filterValue.Some?
    ensures var text := SelectPlan(table, sel, filterColumn, filterValue, limit, random).value.text;
      && (limit.Some? ==> |text| > |LimitClause(limit)| && text[|text| - |LimitClause(limit)|..] == " LIMIT " + Decimal(limit.value))
      && (limit.None? && random ==>
            |text| > |RandomClause(true)| && text[|text| - |RandomClause(true)|..] == " ORDER BY RANDOM()")
  {
    SelectClauses(table, sel, filterColumn, filterValue, limit, random);
  }

  /** A single column name selects the same as a one-element tuple of it. */
  lemma ScalarSelectIsOneTuple(table: string, column: string, filterColumn: Option<string>, filterValue: Option<Value>,
                               limit: Option<int>, random: bool)
    ensures SelectPlan(table, Single(column), filterColumn, filterValue, limit, random) ==
              SelectPlan(table, Several([column]), filterColumn, filterValue, limit, random)
  {
  }
}

=== FILE: values.dfy ===
/**
 Values shared by the whole model: optional values, the Python values that
 flow through listeners and bound parameters, the exception kinds the
 connection code lets escape, and Python's `str()` rendering of those values.
 */
module Values {

  /** Python's `None` (absent) versus a present value. */
  datatype Option<+T> = None | Some(value: T)

  /** A Python value other than `None`: a string, an integer or a boolean. */
  datatype Value = Text(s: string) | Number(i: int) | Flag(b: bool)

  /** The exceptions that can escape a call on a connection. */
  datatype ErrorKind =
    | ConnectError       // every reconnect attempt failed while success was required
    | OptionError        // a rejected argument, or anything raised by an execute
    | AttributeError     // the handle attribute is unassigned or None
    | TypeError          // calling a method that the constructor shadowed with None
    | UnboundLocalError  // `select` returning a result it never assigned
    | KeyError           // dispatching an event that has no slot in the registry

  /** The result of a call: a value, or the exception it raised. */
  datatype Outcome<+T> = Ok(value: T) | Raised(error: ErrorKind)

  predicate IsDigit(ch: char) {
    '0' <= ch <= '9'
  }

  function DigitChar(d: nat): (ch: char)
    requires d < 10
    ensures IsDigit(ch)
  {
    "0123456789"[d]
  }

  function DigitValue(ch: char): (d: nat)
    requires IsDigit(ch)
    ensures d < 10
  {
    (ch - '0') as nat
  }

  /** The decimal digits of `n`, most significant first, without leading zeros. */
  function Digits(n: nat): (s: string)
    ensures 1 <= |s|
    ensures forall k :: 0 <= k < |s| ==> IsDigit(s[k])
    ensures |s| > 1 ==> s[0] != '0'
  {
    if n < 10 then [DigitChar(n)] else Digits(n / 10) + [DigitChar(n % 10)]
  }

  /** Reads a string of decimal digits back as a number. */
  function DigitsValue(s: string): nat
    requires forall k :: 0 <= k < |s| ==> IsDigit(s[k])
  {
    if |s| == 0 then 0 else DigitsValue(s[..|s| - 1]) * 10 + DigitValue(s[|s| - 1])
  }

  /** The digits of `n` read back give `n`. */
  lemma {:induction false} DigitsRoundTrip(n: nat)
    ensures DigitsValue(Digits(n)) == n
  {
    var s := Digits(n);
    if n >= 10 {
      assert s[..|s| - 1] == Digits(n / 10);
      DigitsRoundTrip(n / 10);
    }
  }

  /** Python's `str()` of an integer. */
  function Decimal(i: int): (s: string)
    ensures 1 <= |s|
    ensures i < 0 <==> s[0] == '-'
    ensures i >= 0 ==> s == Digits(i) && DigitsValue(s) == i
    ensures i < 0 ==> s[1..] == Digits(-i) && DigitsValue(s[1..]) == -i
  {
    DigitsRoundTrip(if i < 0 then -i else i);
    if i < 0 then "-" + Digits(-i) else Digits(i)
  }

  /** Python's `str()` of a value, as an f-string renders it: a string as
      itself, an integer as its decimal numeral, a boolean as `True` or
      `False`. */
  function Render(v: Value): (r: string)
    ensures v.Text? ==> r == v.s
    ensures v.Number? ==> r == Decimal(v.i) && (v.i < 0 <==> r[0] == '-')
    ensures v.Flag? ==> r == (if v.b then "True" else "False")
  {
    match v
    case Text(t) => t
    case Number(i) => Decimal(i)
    case Flag(b) => if b then "True" else "False"
  }
}
